=== FILE: README.md ===
# stealth: the traffic-classification core, in Dafny

stealth routes the traffic of chosen desktop applications ("discord", "brave")
through a local proxy at 127.0.0.1:12345. It does this in four parts:

- It creates a cgroup, `/sys/fs/cgroup/myproxygroup`.
- It installs three iptables DNAT rules in the nat table's OUTPUT chain. The rules
  send that group's TCP port 80, TCP port 443 and UDP port 53 traffic to the proxy.
- It polls `pgrep -f <name>` once per second for each application.
- It writes every newly seen PID into the cgroup's `cgroup.procs` file.

When it stops, it deletes the rules again. The client prints the destination address
of each packet it reads as a dotted IPv4 string.

This project models that core as pure functions over explicit inputs. Every external
call is an input that says what the call reported:

- `os.MkdirAll`;
- `pgrep`;
- the write to `cgroup.procs`;
- each `iptables` run.

The modules follow the source:

- `Results`: `Option`, and `ErrValue`, a Go `error` result (`nil` or an error value).
- `Text`: the Go library behaviour the core relies on:
  - `strings.Fields`, with the white-space set of `unicode.IsSpace`;
  - `strings.Split` on one character;
  - joining;
  - decimal printing and reading.
- `Cgroup`: `createCgroup`'s error classification and the bytes `writePIDToCgroup`
  sends.
- `Locator`: `findPIDs`, one tick and a finite run of ticks.
- `Reconciler`: `addPIDToCgroup`, meaning the PID cache and the write decisions over
  a finite run of delivered batches, and the bytes the writes send to `cgroup.procs`.
- `Iptables`:
  - the three rules of `applyIptablesRules` and `disableRules` and their text;
  - the argument list `strings.Split(rule, " ")` produces, and how to read it back;
  - the shared loop that stops at the first failure;
  - the effect of the commands on the OUTPUT chain, which is modelled as a list of
    rules.
- `Lifecycle`: `Init` and its deferred `Cleanup` as a trace of observable events.
- `Octets`: `client/client.go:86`:
  - `byte(destIP>>24) … byte(destIP)` on a `uint32`;
  - `net.IP.String()` for the resulting IPv4 address.

The rules are built from a `Config`: the group's name plus the proxy address and
port. `Iptables.Configured` holds the values the source uses: "myproxygroup",
"127.0.0.1" and "12345". The lemmas about `Init` hold for every configuration.

Two behaviours of the code shape much of the model:

- **No rollback.** `applyIptablesRules` returns at the first failing rule and leaves
  the earlier rules installed (unix/init.go:205-210).
  - `Iptables.SecondRuleFailureLeavesFirstInstalled` shows the port 80 rule surviving
    a failure of the port 443 rule.
  - `Lifecycle.Installed` states how many rules survive: those before the first
    failing one.
  - `Lifecycle.CleanupRemovesWhatInitInstalled` shows that the deferred `Cleanup`
    still removes what was installed. This holds under three conditions: `iptables -D`
    fails exactly on rules that are absent, the chain held none of the three rules
    before `Init`, and nothing else touches the chain.
- **Deletes stop at the first failure.** `iptables -D` fails on a rule the chain does
  not hold, so `disableRules` stops there and returns an error (unix/init.go:183-188),
  and `Cleanup` only logs it (unix/init.go:67-81).
- **Cleanup does not know what was installed.** `disableRules` tries the three deletes
  whatever `Init` did (unix/init.go:171-189). A matching rule the chain already held,
  from an earlier run or from someone else, is deleted even when this `Init` installed
  nothing. `Lifecycle.CleanupDeletesRuleInitNeverInstalled` shows this for a chain
  holding the port 80 rule.

## Model

| member | source | states |
|---|---|---|
| Cgroup.CreateCgroup | unix/init.go:84-90 | Creation succeeds exactly when `MkdirAll` succeeded or failed with an error `os.IsExist` accepts. Otherwise it fails with the very error `MkdirAll` reported, which is never one `os.IsExist` accepts. |
| Cgroup.Record | unix/init.go:158-168 | One membership write sends the PID followed by a single newline and nothing else. |
| Text.Fields | unix/init.go:115 | Every field is non-empty and free of white space. There are no fields exactly when the output is all white space. |
| Text.FieldsKeepNonSpace | unix/init.go:115 | The fields, concatenated, are exactly the non-space characters of the output, in order: splitting loses nothing but white space. |
| Text.FieldsOfLines | unix/init.go:115 | Newline-terminated words are read back as exactly those words. |
| Text.FieldsOfJoin | unix/init.go:115 | Words joined by any white-space character are read back as exactly those words. |
| Text.FieldsOfLayout | unix/init.go:115 | The fields are the maximal runs of non-space characters: words separated by any non-empty white space, with any white space before and after, are read back as exactly those words. |
| Text.Gaps | unix/init.go:115 | Every string is its fields laid out between white-space gaps, non-empty between two fields; with `FieldsOfLayout` this pins the fields of every string. |
| Text.Split | unix/init.go:184 | `strings.Split` on one character yields at least one piece, and no piece contains the separator. |
| Text.SplitOfJoin | unix/init.go:184 | Splitting undoes joining whenever no part contains the separator. |
| Text.JoinOfSplit | unix/init.go:184 | Joining the pieces of any string gives back that string. |
| Text.DecimalRoundTrip | client/client.go:86 | Decimal printing can be read back: parsing the printed form of `n` gives `n`. |
| Locator.PollOnce | unix/init.go:109-118 | One tick sends a batch exactly when pgrep succeeded and printed something other than white space. The batch carries the process name, is non-empty, and its PIDs are white-space-free fields that together hold exactly the non-space characters of the output. |
| Locator.FindPids | unix/init.go:103-122 | Over a run of ticks, at most one batch per tick. Every batch is non-empty, names the process, and is the field list of some successful pgrep run. |
| Locator.SendingTicks | unix/init.go:109-118 | The ticks whose pgrep succeeded with some non-space output, in strictly increasing order, and all of them. |
| Locator.FindPidsFollowsTicks | unix/init.go:103-122 | The locator sends exactly one batch per such tick and none otherwise, in tick order: the k-th batch is what the k-th sending tick polls. |
| Locator.PollOnceReadsEveryLayout | unix/init.go:109-118 | PIDs separated by any white space become exactly that batch; all-white-space output sends nothing. |
| Locator.QuietTicksSendNothing | unix/init.go:110-118 | Ticks whose pgrep failed or printed only white space send nothing. |
| Locator.PgrepLinesBecomeBatch | unix/init.go:109-117 | pgrep's one-PID-per-line output becomes exactly that list of PIDs as one batch. |
| Reconciler.ReconcileBatch | unix/init.go:139-152 | Handling a batch never removes a PID from the cache and makes at most one write per PID occurrence. |
| Reconciler.BatchCache | unix/init.go:140-150 | After a batch the cache is the old cache plus exactly the PIDs whose write succeeded at some position of the batch. |
| Reconciler.BatchWritesOnlyAbsent | unix/init.go:142-143 | A write is attempted only for a PID of the batch that was not cached before the batch. |
| Reconciler.BatchWritesEveryAbsent | unix/init.go:140-143 | Every PID of the batch that was not cached before the batch is written at least once. |
| Reconciler.BatchCachesSuccesses | unix/init.go:143-148 | The PIDs the batch adds to the cache are exactly those whose write succeeded. |
| Reconciler.BatchWrittenOnce | unix/init.go:140-150 | Within a batch, no PID is written again after a write of it succeeded. |
| Reconciler.Reconcile | unix/init.go:133-154 | The loop over many batches only ever grows the cache. |
| Reconciler.RunWritesEachPidOnce | unix/init.go:133-154 | Over a whole run: only initially uncached PIDs are written, the cache grows by exactly the successfully written PIDs, and no PID is written again after a successful write. |
| Reconciler.FailedWriteIsRetried | unix/init.go:143-148 | A PID whose writes in one batch all failed stays uncached and is written again when a later batch reports it. |
| Reconciler.BytesWrittenAreLines | unix/init.go:158-167 | The bytes written to `cgroup.procs` are one newline-terminated line per successful write, in write order. |
| Reconciler.WrittenPidsDistinct | unix/init.go:140-150 | When no PID is written twice after succeeding, the successfully written PIDs are pairwise distinct. |
| Reconciler.BytesWrittenListWrittenPids | unix/init.go:158-167 | Read as white-space-separated fields, the bytes written to `cgroup.procs` are exactly the successfully written PIDs in order, with no duplicates when each PID succeeded once. |
| Reconciler.NewChildIsTheOnlyNewWrite | unix/init.go:133-153 | Two discord ticks, 100 101 and then 100 101 102: 100 and 101 are written once, and only 102 is written in the second tick. |
| Iptables.RuleListsAgree | unix/init.go:173-203 | Both functions build the same three rules in the same order: TCP 80, TCP 443, UDP 53. Each matches the group by name and redirects to the proxy address and port. The two lists differ only in `-A`/`-D`, which is the third word of the text. |
| Iptables.FirstAppendRuleTokens | unix/init.go:196 | With the configured constants, the first append rule has the expected 19 words, including `--path myproxygroup` and `--to-destination 127.0.0.1:12345`. |
| Iptables.ConfiguredRulesWellFormed | unix/init.go:15-20 | The configured group name, address and port contain no space or colon, so they fit the template. |
| Iptables.ArgvIsTokens | unix/init.go:206 | Splitting a well-formed rule's text on spaces gives exactly the template's words: no value is broken up or merged with its neighbour. |
| Iptables.ArgvRoundTrip | unix/init.go:205-206 | The argument list passed to iptables determines the rule: reading it back gives the rule. |
| Iptables.TargetRoundTrip | unix/init.go:196 | The `ip:port` target splits back into the address and the port. |
| Iptables.Message | unix/init.go:207-208 | The returned error text quotes the failing rule's text and ends with iptables' output. |
| Iptables.RunRules | unix/init.go:205-211 | The commands run are a prefix of the rule list. The loop succeeds exactly when every command succeeds, and then all were run. Otherwise the last command run is the first that failed, every earlier one succeeded, and the error names that rule and iptables' output. |
| Iptables.RemoveFirstRemovesOneCopy | unix/init.go:184 | A delete removes one copy of a rule the chain holds and leaves the chain unchanged when it holds none. |
| Iptables.AppendLoopLeavesPrefix | unix/init.go:205-211 | The append loop does not roll back: after a failure at rule k, the chain holds exactly the k earlier rules appended; after success, all of them. |
| Iptables.SecondRuleFailureLeavesFirstInstalled | unix/init.go:193-211 | When the port 443 rule fails, start-up fails, but the port 80 rule stays installed. |
| Iptables.DeletesRemoveOneCopyEach | unix/init.go:183-188 | Deleting rules the chain holds removes one copy of each. |
| Iptables.DeletesUndoAppends | unix/init.go:183-188 | Deleting, in order, rules appended to a chain that held none of them gives back exactly that chain. |
| Iptables.AppendsThenDeletes | unix/init.go:171-211 | Appending rules and then deleting them restores the chain's contents, and the chain itself when it held none of them. |
| Iptables.InstallThenRemoveRestoresChain | unix/init.go:171-211 | When both loops succeed, the chain holds the same rules afterwards as before, and is exactly the same when it held none of the three. |
| Iptables.DeleteLoopUndoesPrefix | unix/init.go:183-188 | When the deletes succeed exactly on the rules an interrupted append loop left behind, the delete loop removes exactly those rules. |
| Lifecycle.Cleanup | unix/init.go:67-81 | `Cleanup` always tries to delete the first rule. The rules it runs are exactly those the delete loop ran, in order, and every one is a delete. It ends by logging the delete loop's result, success or error, and marking the wait group done. |
| Lifecycle.ApplyStepOrder | unix/init.go:41-62 | Once the cgroup exists: the rules run are exactly those the append loop ran, in order, and no directory is created. `initDone` is signalled exactly when all three rules were applied, and after all of them. Otherwise exactly one error is sent: the loop's own error, which names the failing rule. It is the last event. Serving starts exactly right after `initDone`. |
| Lifecycle.StartupOrder | unix/init.go:28-62 | Before `Cleanup`: `Init` first registers with the wait group, and the cgroup directory is created before any rule is applied. The rules run are exactly those the append loop ran, in order, when the cgroup was created, and none otherwise. `initDone` is signalled exactly when both steps succeeded, and after every rule. Otherwise exactly one error is sent, and `Init` returns right after it. That error is the one `createCgroup` returned when creation failed, and otherwise the append loop's error naming the failing rule. Serving starts exactly right after `initDone`. Nothing is deleted. |
| Lifecycle.CleanupOnlyDeletes | unix/init.go:67-81 | `Cleanup` sends no error, signals nothing and applies no rule. |
| Lifecycle.InitRunsTheLoops | unix/init.go:28-81 | The iptables runs of the whole of `Init`, in order, are those of the append loop when the cgroup was created, then those of the delete loop. |
| Lifecycle.InitSignalsOnlyAfterBothSteps | unix/init.go:28-48 | For the whole of `Init`: the rules run are those of the two loops, in order. The cgroup directory is created, and before any rule is applied. `initDone` is signalled exactly when the cgroup was created and all three rules were applied, and after all of them. Otherwise exactly one error is sent. |
| Lifecycle.InitStopsAtError | unix/init.go:28-45 | For the whole of `Init`: `Init` returns right after sending an error, so only events of the deferred `Cleanup` follow it. |
| Lifecycle.InitServesRightAfterSignal | unix/init.go:48-62 | For the whole of `Init`: the locators and the reconciliation loop run exactly when `initDone` was signalled, and right after it. |
| Lifecycle.InitAlwaysCleansUp | unix/init.go:28-81 | Every way through `Init` ends with the deferred `Cleanup`. It comes after every rule application, error and signal. It tries to delete the first rule, logs the result of the delete loop, and marks the wait group done last. |
| Lifecycle.Installed | unix/init.go:33-45 | Nothing is installed when the cgroup could not be created. Otherwise, with no rollback, the installed rules are the prefix of the rule list that ends just before the first failing append, or all three when none fails. |
| Lifecycle.CleanupRemovesWhatInitInstalled | unix/init.go:28-81 | Suppose `iptables -D` fails exactly on rules the chain lacks, and the chain held none of the three rules before. Then the deferred `Cleanup` removes every rule `Init` installed, whichever step failed. |
| Lifecycle.CleanupDeletesRuleInitNeverInstalled | unix/init.go:171-189 | When the chain already held the port 80 rule and the first append failed, `Init` installed nothing, yet `Cleanup` deletes that rule and leaves the chain empty, with every delete failing exactly on an absent rule. |
| Octets.Split4 | client/client.go:86 | The four bytes are the address's octets, most significant first. |
| Octets.SplitJoin | client/client.go:86 | The split loses nothing: the four bytes reassemble into the address. |
| Octets.JoinSplit | client/client.go:86 | Every four bytes are the split of the address they assemble into. |
| Octets.DottedRoundTrip | client/client.go:86 | The printed dotted-decimal string identifies the address: reading it back gives the address. |
| Octets.TenDotZeroDotZeroDotOne | client/client.go:86 | Destination 0x0A000001 splits into 10, 0, 0, 1 and prints as "10.0.0.1". |

## Left out

- Goroutines, channels, the mutex, `time.Sleep` and context cancellation are not
  modelled:
  - a locator is a finite sequence of ticks;
  - the reconciliation loop handles a finite sequence of batches one after another;
  - the wait until cancellation at the end of `Init` is one `ServeUntilCancelled`
    event.
- Locator interleaving: the order in which the two locators' batches reach the
  channel is not modelled. `Reconciler.Reconcile` takes the deliveries in whatever
  order they arrive.
- External calls become inputs, and the model does not say why they succeed or fail:
  - `os.MkdirAll`, `os.OpenFile`, `WriteString`;
  - `exec.Command(...).Output()` for pgrep;
  - `CombinedOutput()` for iptables.
- The file handle `addPIDToCgroup` opens and never uses (unix/init.go:126-131) is not
  modelled. Whether it opens has no effect on the writes.
- Logging (`logger.Infof`, `Printf`, `Errorf`) is not modelled, except for the one
  `LogCleanup` event that carries the result `Cleanup` logs.
- What is at `/sys/fs/cgroup/myproxygroup` after `createCgroup` succeeds is not
  modelled. `os.MkdirAll` returns nil for an existing directory; it reports an error
  `os.IsExist` accepts only when something other than a directory is at the path, and
  `createCgroup` then reports success all the same (unix/init.go:85-89).
- `getCgroupInode` (unix/init.go:92-100) is not modelled. Nothing in the core calls it.
- The TUN device setup, `protocols.ParseIPHeader` and the packet read loop of
  client/client.go are not modelled. The model starts from the 32-bit `DestIP` value.
- unix/proxy_client.go is not part of this model.
- `cgroup.procs` is a kernel interface: a write moves the process into the group,
  and reading the file lists the group's current members. The model covers only the
  bytes the writes send, not what reading the file back shows.
- Text: Go strings are UTF-8 bytes, but these strings are sequences of Unicode code
  points. For pgrep's ASCII output and the ASCII rule text the two coincide.
- Lifecycle.Init: carries no contract of its own. Its properties are stated by
  `Lifecycle.InitRunsTheLoops`, `Lifecycle.InitSignalsOnlyAfterBothSteps`,
  `Lifecycle.InitStopsAtError`, `Lifecycle.InitServesRightAfterSignal` and
  `Lifecycle.InitAlwaysCleansUp`.
- Lifecycle.Startup: the part of `Init` before `Cleanup` (unix/init.go:28-62) carries
  no contract of its own. `Lifecycle.StartupOrder` states its properties.
- Lifecycle.ApplyStep: the append step of `Init` and what follows it
  (unix/init.go:41-62) carries no contract of its own. `Lifecycle.ApplyStepOrder`
  states its properties.
- Iptables.Rules: the three rules both loops build (unix/init.go:173-181, 195-203)
  carry no contract of their own. `Iptables.RuleListsAgree` states what they are and
  `Iptables.FirstAppendRuleTokens` shows the first one with the configured values.
- Iptables.Tokens and Iptables.Render: the words and the text of the `fmt.Sprintf`
  template (unix/init.go:174, 196) carry no contract of their own.
  `Iptables.FirstAppendRuleTokens`, `Iptables.ArgvIsTokens` and `Iptables.Message`
  state their properties.
- Iptables.Argv: `strings.Split(rule, " ")` (unix/init.go:184, 206) carries no
  contract of its own. `Iptables.ArgvIsTokens` and `Iptables.ArgvRoundTrip` state its
  properties.
- Octets.Dotted: `net.IP.String()` for an IPv4 address (client/client.go:86) carries
  no contract of its own. `Octets.DottedRoundTrip` and
  `Octets.TenDotZeroDotZeroDotOne` state its properties.
- Iptables.Execute: models the kernel's OUTPUT chain only as far as the three rules
  go. An append adds the rule at the end and a delete removes its first match.
  Failed commands change nothing. Other chains and tables are not modelled.
- Lifecycle.CleanupRemovesWhatInitInstalled: assumes, as preconditions, that
  `iptables -D` fails exactly on absent rules and that the chain held none of the
  three rules before `Init`. The lemma does not cover other causes of failure; a chain
  that already held a rule is the case `Lifecycle.CleanupDeletesRuleInitNeverInstalled`
  shows.

=== FILE: cgroup.dfy ===
/** The classification group (a cgroup directory) of unix/init.go: its creation and
    the bytes a membership write sends to its process file. The filesystem calls
    themselves (`os.MkdirAll`, `os.OpenFile`, `WriteString`) are inputs: the model
    receives what they reported. */
module Cgroup {
  import opened Results

  /** The name iptables rules match the group by (the group itself is the directory
      `/sys/fs/cgroup/myproxygroup`, whose path the model does not need). */
  const CgroupName: string := "myproxygroup"

  /** An error a filesystem call can report. `AlreadyExists` stands for the errors
      `os.IsExist` accepts (EEXIST, ENOTEMPTY). `os.MkdirAll` returns nil, not such an
      error, when the path already is a directory; it reports one only when `mkdir`
      meets something at the path that is not a directory. */
  datatype FsError = AlreadyExists | OtherFsError(reason: string)

  /** What `os.MkdirAll(cgroupPath, 0755)` returned. */
  datatype MkdirOutcome = MkdirOk | MkdirFailed(err: FsError)

  /** `createCgroup`: an error `os.IsExist` accepts counts as success; any other error
      is handed back to the caller unchanged. */
  function CreateCgroup(mk: MkdirOutcome): (r: ErrValue<FsError>)
    ensures r.Nil? <==> mk.MkdirOk? || mk.err.AlreadyExists?
    ensures r.Err? ==> mk == MkdirFailed(r.error) && r.error.OtherFsError?
  {
    match mk
    case MkdirOk => Nil
    case MkdirFailed(err) => if err.AlreadyExists? then Nil else Err(err)
  }

  /** What `writePIDToCgroup` returned: nil, or the error of opening or writing the
      process file. */
  datatype WriteOutcome = Written | WriteFailed(err: FsError)

  /** The bytes `writePIDToCgroup` writes to the process file for one PID. */
  function Record(pid: string): (rec: string)
    ensures |rec| == |pid| + 1 && rec[|pid|] == '\n'
    ensures rec[..|pid|] == pid
  {
    pid + "\n"
  }
}

=== FILE: iptables.dfy ===
/** The redirection rules of unix/init.go (`applyIptablesRules`, `disableRules`):
    three DNAT rules in the nat table's OUTPUT chain that send the group's TCP port
    80, TCP port 443 and UDP port 53 traffic to the local proxy. Each function builds
    the same three rules, differing only in `-A` (append) or `-D` (delete), runs them in
    order and stops at the first failure, without undoing the rules already run. The
    iptables runs are inputs. */
module Iptables {
  import opened Results
  import opened Text
  import Cgroup

  /** The proxy endpoint every rule redirects to. */
  const ProxyIP: string := "127.0.0.1"
  const ProxyPort: string := "12345"

  /** The values the rules are built from: the group's name and the proxy endpoint. */
  datatype Config = Config(cgroupName: string, proxyIP: string, proxyPort: string)

  /** The values unix/init.go builds its rules from. */
  const Configured: Config := Config(Cgroup.CgroupName, ProxyIP, ProxyPort)

  datatype Action = Append | Delete
  datatype Proto = Tcp | Udp

  /** One iptables command: the action, and the rule it appends or deletes. */
  datatype Rule = Rule(action: Action, proto: Proto, dport: nat, cgroupName: string,
                       proxyIP: string, proxyPort: string)

  function Flag(a: Action): string {
    match a
    case Append => "-A"
    case Delete => "-D"
  }

  function ProtoName(p: Proto): string {
    match p
    case Tcp => "tcp"
    case Udp => "udp"
  }

  /** The words of the rule's `fmt.Sprintf` template, with its placeholders filled in. */
  function Tokens(r: Rule): seq<string> {
    ["-t", "nat", Flag(r.action), "OUTPUT", "-m", "cgroup", "--path", r.cgroupName,
     "-p", ProtoName(r.proto), "!", "-d", r.proxyIP, "--dport", Decimal(r.dport),
     "-j", "DNAT", "--to-destination", r.proxyIP + ":" + r.proxyPort]
  }

  /** The rule text the source formats: the template's words separated by single
      spaces. */
  function Render(r: Rule): string {
    Join(Tokens(r), ' ')
  }

  /** The argument list actually passed to iptables: `strings.Split(rule, " ")`. */
  function Argv(r: Rule): seq<string> {
    Split(Render(r), ' ')
  }

  /** The configured values fit the template: none contains a space, and the proxy
      address and port contain no colon (the target is written `ip:port`). */
  predicate WellFormed(r: Rule) {
    ' ' !in r.cgroupName && ' ' !in r.proxyIP && ' ' !in r.proxyPort
    && ':' !in r.proxyIP && ':' !in r.proxyPort
  }

  /** The rule list both functions build, in the order they run it. */
  function Rules(a: Action, cfg: Config): seq<Rule> {
    [Rule(a, Tcp, 80, cfg.cgroupName, cfg.proxyIP, cfg.proxyPort),
     Rule(a, Tcp, 443, cfg.cgroupName, cfg.proxyIP, cfg.proxyPort),
     Rule(a, Udp, 53, cfg.cgroupName, cfg.proxyIP, cfg.proxyPort)]
  }

  lemma FirstAppendRuleTokens()
    ensures Tokens(Rules(Append, Configured)[0]) == ["-t", "nat", "-A", "OUTPUT", "-m", "cgroup", "--path", "myproxygroup", "-p", "tcp", "!", "-d", "127.0.0.1", "--dport", "80", "-j", "DNAT", "--to-destination", "127.0.0.1:12345"]
  {
    var r := Rules(Append, Configured)[0];
    assert Decimal(80) == "80" by {
      assert Decimal(8) == "8";
    }
    assert r.proxyIP + ":" + r.proxyPort == "127.0.0.1:12345";
    assert r.cgroupName == "myproxygroup";
  }

  /** Both rule lists hold the same three rules in the same order, TCP 80, TCP 443 and
      UDP 53, each matching the group by its name (`-m cgroup --path myproxygroup`),
      excluding traffic already bound for the proxy and redirecting to the proxy's
      address and port; appending and deleting differ only in the action. */
  lemma RuleListsAgree(cfg: Config, i: nat)
    requires i < 3
    ensures var appends, deletes := Rules(Append, cfg), Rules(Delete, cfg);
      && |appends| == |deletes| == 3
      && appends[i].action == Append && deletes[i].action == Delete
      && deletes[i] == appends[i].(action := Delete)
      && [(appends[0].proto, appends[0].dport), (appends[1].proto, appends[1].dport),
          (appends[2].proto, appends[2].dport)] == [(Tcp, 80), (Tcp, 443), (Udp, 53)]
      && appends[i].cgroupName == cfg.cgroupName
      && appends[i].proxyIP == cfg.proxyIP && appends[i].proxyPort == cfg.proxyPort
      && Tokens(deletes[i]) == Tokens(appends[i])[2 := "-D"]
  {
  }

  /** The configured values fit the rule template. */
  lemma ConfiguredRulesWellFormed(a: Action, i: nat)
    requires i < 3
    ensures WellFormed(Rules(a, Configured)[i])
  {
  }

  lemma NoSpaceInTokens(r: Rule)
    requires WellFormed(r)
    ensures forall i :: 0 <= i < |Tokens(r)| ==> ' ' !in Tokens(r)[i]
  {
    var d := Decimal(r.dport);
    assert forall k :: 0 <= k < |d| ==> d[k] != ' ';
    var target := r.proxyIP + ":" + r.proxyPort;
    assert forall k :: 0 <= k < |target| ==> target[k] != ' ' by {
      forall k | 0 <= k < |target| ensures target[k] != ' ' {
        if k < |r.proxyIP| {
          assert target[k] == r.proxyIP[k];
        } else if k > |r.proxyIP| {
          assert target[k] == r.proxyPort[k - |r.proxyIP| - 1];
        }
      }
    }
  }

  /** Splitting the rule text on spaces gives iptables exactly the intended words: no
      configured value is broken in two or merged with its neighbour. */
  lemma ArgvIsTokens(r: Rule)
    requires WellFormed(r)
    ensures Argv(r) == Tokens(r)
  {
    NoSpaceInTokens(r);
    SplitOfJoin(Tokens(r), ' ');
  }

  function ParseFlag(s: string): Option<Action> {
    if s == "-A" then Some(Append) else if s == "-D" then Some(Delete) else None
  }

  function ParseProto(s: string): Option<Proto> {
    if s == "tcp" then Some(Tcp) else if s == "udp" then Some(Udp) else None
  }

  /** Reads a rule back from an iptables argument list of the template's shape; `None`
      for any other list. The partner of `Argv`. */
  function ParseArgv(args: seq<string>): Option<Rule> {
    if |args| != 19 then None
    else if args[0] != "-t" || args[1] != "nat" || args[3] != "OUTPUT" || args[4] != "-m"
      || args[5] != "cgroup" || args[6] != "--path" || args[8] != "-p" || args[10] != "!"
      || args[11] != "-d" || args[13] != "--dport" || args[15] != "-j" || args[16] != "DNAT"
      || args[17] != "--to-destination" then None
    else
      var action := ParseFlag(args[2]);
      var proto := ParseProto(args[9]);
      var dport := ParseDecimal(args[14]);
      var target := Split(args[18], ':');
      if action.None? || proto.None? || dport.None? || |target| != 2 || target[0] != args[12] then None
      else Some(Rule(action.value, proto.value, dport.value, args[7], args[12], target[1]))
  }

  /** The command line determines the rule: reading back the arguments of a
      well-formed rule gives that rule. */
  lemma ArgvRoundTrip(r: Rule)
    requires WellFormed(r)
    ensures ParseArgv(Argv(r)) == Some(r)
  {
    ArgvIsTokens(r);
    ParseTokens(r);
  }

  lemma ParseTokens(r: Rule)
    requires WellFormed(r)
    ensures ParseArgv(Tokens(r)) == Some(r)
  {
    var args := Tokens(r);
    DecimalRoundTrip(r.dport);
    assert ParseDecimal(args[14]) == Some(r.dport);
    assert ParseFlag(args[2]) == Some(r.action);
    assert ParseProto(args[9]) == Some(r.proto);
    TargetRoundTrip(r.proxyIP, r.proxyPort);
  }

  /** The `ip:port` target splits back into the address and the port. */
  lemma TargetRoundTrip(ip: string, port: string)
    requires ':' !in ip && ':' !in port
    ensures Split(ip + ":" + port, ':') == [ip, port]
  {
    assert Join([ip, port], ':') == ip + ":" + port;
    SplitOfJoin([ip, port], ':');
  }

  /** What `exec.Command("iptables", args...).CombinedOutput()` reported: success, or
      the command's error (such as its exit status) and its combined output. */
  datatype ExecOutcome = ExecOk | ExecFailed(status: string, output: string)

  /** The error the rule loop returns: the rule that failed, iptables' error and its
      output. */
  datatype RuleError = RuleFailed(rule: Rule, status: string, output: string)

  /** The text of the returned error: the rule's text in quotes, the error, then the
      output on the next line. */
  function Message(e: RuleError): (m: string)
    ensures |m| > 6 + |Render(e.rule)| + |e.output| && m[..6] == "rule '"
    ensures m[6..6 + |Render(e.rule)|] == Render(e.rule) && m[6 + |Render(e.rule)|] == '\''
    ensures m[|m| - |e.output|..] == e.output
  {
    "rule '" + Render(e.rule) + "' failed: " + e.status + "\n" + e.output
  }

  /** The commands a rule loop ran, in order, and what it returned. */
  datatype RunReport = RunReport(executed: seq<Rule>, result: ErrValue<RuleError>)

  /** The loop shared by `applyIptablesRules` and `disableRules`: run each rule in
      order, where `outcomes[i]` is what running `rules[i]` reports, and return at the
      first failure with an error naming that rule. Rules already run stay in place. */
  function RunRules(rules: seq<Rule>, outcomes: seq<ExecOutcome>): (r: RunReport)
    requires |outcomes| == |rules|
    ensures |r.executed| <= |rules| && r.executed == rules[..|r.executed|]
    ensures r.result.Nil? <==> forall i :: 0 <= i < |rules| ==> outcomes[i].ExecOk?
    ensures r.result.Nil? ==> r.executed == rules
    ensures r.result.Err? ==>
      var k := |r.executed| - 1;
      && 0 <= k
      && (forall i :: 0 <= i < k ==> outcomes[i].ExecOk?)
      && outcomes[k].ExecFailed?
      && r.result.error == RuleFailed(rules[k], outcomes[k].status, outcomes[k].output)
  {
    if |rules| == 0 then RunReport([], Nil)
    else if outcomes[0].ExecFailed? then
      RunReport([rules[0]], Err(RuleFailed(rules[0], outcomes[0].status, outcomes[0].output)))
    else
      var rest := RunRules(rules[1..], outcomes[1..]);
      assert forall i :: 1 <= i < |rules| ==> outcomes[i] == outcomes[1..][i - 1];
      RunReport([rules[0]] + rest.executed, rest.result)
  }

  /** The rules that took effect: every rule run, except a final one that failed. */
  function Effective(report: RunReport): seq<Rule> {
    if report.result.Err? && |report.executed| > 0 then report.executed[..|report.executed| - 1]
    else report.executed
  }

  /** The nat OUTPUT chain, as the rules it holds (each with action `Append`). */
  type Chain = seq<Rule>

  /** The chain without the first occurrence of `x` (`iptables -D` deletes the first
      matching rule). */
  function RemoveFirst<T(==)>(chain: seq<T>, x: T): seq<T> {
    if |chain| == 0 then chain
    else if chain[0] == x then chain[1..] else [chain[0]] + RemoveFirst(chain[1..], x)
  }

  /** Deleting removes one copy of the rule when the chain holds it, and changes
      nothing when it does not. */
  lemma {:induction false} RemoveFirstRemovesOneCopy<T>(chain: seq<T>, x: T)
    ensures x in chain ==> multiset(RemoveFirst(chain, x)) == multiset(chain) - multiset{x}
    ensures x !in chain ==> RemoveFirst(chain, x) == chain
  {
    if |chain| > 0 {
      assert chain == [chain[0]] + chain[1..];
      RemoveFirstRemovesOneCopy(chain[1..], x);
    }
  }

  /** The chain after a command that succeeded. */
  function Execute(chain: Chain, r: Rule): Chain {
    match r.action
    case Append => chain + [r]
    case Delete => RemoveFirst(chain, r.(action := Append))
  }

  function ExecuteAll(chain: Chain, rules: seq<Rule>): Chain
    decreases |rules|
  {
    if |rules| == 0 then chain else ExecuteAll(Execute(chain, rules[0]), rules[1..])
  }

  /** Appending commands that succeed add their rules to the end of the chain. */
  lemma {:induction false} AppendsExtendChain(chain: Chain, rules: seq<Rule>)
    requires forall i :: 0 <= i < |rules| ==> rules[i].action == Append
    decreases |rules|
    ensures ExecuteAll(chain, rules) == chain + rules
  {
    if |rules| > 0 {
      AppendsExtendChain(chain + [rules[0]], rules[1..]);
      assert chain + [rules[0]] + rules[1..] == chain + rules;
    }
  }

  /** A rule loop that appends does not roll back: when the rule at position k fails,
      the k rules before it stay in the chain, and only those. */
  lemma AppendLoopLeavesPrefix(chain: Chain, rules: seq<Rule>, outcomes: seq<ExecOutcome>)
    requires |outcomes| == |rules|
    requires forall i :: 0 <= i < |rules| ==> rules[i].action == Append
    ensures var report := RunRules(rules, outcomes);
      var n := if report.result.Nil? then |rules| else |report.executed| - 1;
      0 <= n && ExecuteAll(chain, Effective(report)) == chain + rules[..n]
  {
    var report := RunRules(rules, outcomes);
    var eff := Effective(report);
    assert forall i :: 0 <= i < |eff| ==> eff[i] == rules[i];
    AppendsExtendChain(chain, eff);
    if report.result.Nil? {
      assert rules[..|rules|] == rules;
    }
  }

  /** A failure of the second rule leaves the port 80 rule installed, although the
      error aborts start-up. */
  lemma SecondRuleFailureLeavesFirstInstalled(cfg: Config, chain: Chain, status: string, output: string)
    ensures var report := RunRules(Rules(Append, cfg), [ExecOk, ExecFailed(status, output), ExecOk]);
      report.result.Err?
      && ExecuteAll(chain, Effective(report)) == chain + [Rules(Append, cfg)[0]]
  {
    var rules := Rules(Append, cfg);
    var outcomes := [ExecOk, ExecFailed(status, output), ExecOk];
    var report := RunRules(rules, outcomes);
    assert !outcomes[1].ExecOk?;
    assert forall i :: 0 <= i < |rules| ==> rules[i].action == Append;
    AppendLoopLeavesPrefix(chain, rules, outcomes);
    assert |report.executed| == 2 by {
      assert report.executed == rules[..|report.executed|];
      assert outcomes[|report.executed| - 1].ExecFailed?;
    }
  }

  lemma {:induction false} RemoveFirstSkipsPrefix<T>(chain: seq<T>, tail: seq<T>, x: T)
    requires x !in chain
    ensures RemoveFirst(chain + tail, x) == chain + RemoveFirst(tail, x)
  {
    if |chain| == 0 {
      assert chain + tail == tail;
    } else {
      var all := chain + tail;
      assert all[0] == chain[0] != x;
      assert all[1..] == chain[1..] + tail;
      RemoveFirstSkipsPrefix(chain[1..], tail, x);
      assert RemoveFirst(all, x) == [chain[0]] + RemoveFirst(chain[1..] + tail, x);
      assert [chain[0]] + (chain[1..] + RemoveFirst(tail, x)) == chain + RemoveFirst(tail, x);
    }
  }

  /** `deletes` deletes, one by one, the rules `appends` appended. */
  predicate Mirrors(deletes: seq<Rule>, appends: seq<Rule>) {
    |deletes| == |appends|
    && forall i :: 0 <= i < |deletes| ==> deletes[i].action == Delete && deletes[i].(action := Append) == appends[i]
  }

  /** Deleting rules the chain holds removes one copy of each. */
  lemma {:induction false} DeletesRemoveOneCopyEach(chain: Chain, deletes: seq<Rule>, appends: seq<Rule>)
    requires Mirrors(deletes, appends)
    requires multiset(appends) <= multiset(chain)
    decreases |appends|
    ensures multiset(ExecuteAll(chain, deletes)) == multiset(chain) - multiset(appends)
  {
    if |appends| > 0 {
      assert appends == [appends[0]] + appends[1..];
      assert appends[0] in multiset(chain);
      var next := Execute(chain, deletes[0]);
      assert next == RemoveFirst(chain, appends[0]);
      RemoveFirstRemovesOneCopy(chain, appends[0]);
      assert Mirrors(deletes[1..], appends[1..]);
      DeletesRemoveOneCopyEach(next, deletes[1..], appends[1..]);
    }
  }

  /** Deleting, in order, rules appended to a chain that held none of them gives back
      exactly that chain. */
  lemma {:induction false} DeletesUndoAppends(chain: Chain, deletes: seq<Rule>, appends: seq<Rule>)
    requires Mirrors(deletes, appends)
    requires forall i :: 0 <= i < |appends| ==> appends[i] !in chain
    decreases |appends|
    ensures ExecuteAll(chain + appends, deletes) == chain
  {
    if |appends| == 0 {
      assert chain + appends == chain;
    } else {
      RemoveFirstSkipsPrefix(chain, appends, appends[0]);
      assert RemoveFirst(appends, appends[0]) == appends[1..];
      assert Execute(chain + appends, deletes[0]) == chain + appends[1..];
      assert Mirrors(deletes[1..], appends[1..]);
      DeletesUndoAppends(chain, deletes[1..], appends[1..]);
    }
  }

  /** Appending rules and then deleting them again restores the chain's contents, and
      the chain itself when it held none of them. */
  lemma AppendsThenDeletes(chain: Chain, appends: seq<Rule>, deletes: seq<Rule>)
    requires Mirrors(deletes, appends)
    requires forall i :: 0 <= i < |appends| ==> appends[i].action == Append
    ensures multiset(ExecuteAll(ExecuteAll(chain, appends), deletes)) == multiset(chain)
    ensures (forall i :: 0 <= i < |appends| ==> appends[i] !in chain) ==>
      ExecuteAll(ExecuteAll(chain, appends), deletes) == chain
  {
    AppendsExtendChain(chain, appends);
    assert multiset(chain + appends) == multiset(chain) + multiset(appends);
    DeletesRemoveOneCopyEach(chain + appends, deletes, appends);
    if forall i :: 0 <= i < |appends| ==> appends[i] !in chain {
      DeletesUndoAppends(chain, deletes, appends);
    }
  }

  /** When both loops succeed, installing and then removing the rules leaves the chain
      holding the same rules as before; and exactly the same chain when it held none of
      them to begin with. */
  lemma InstallThenRemoveRestoresChain(cfg: Config, chain: Chain)
    ensures var a, d := Rules(Append, cfg), Rules(Delete, cfg);
      multiset(ExecuteAll(ExecuteAll(chain, a), d)) == multiset(chain)
    ensures var a, d := Rules(Append, cfg), Rules(Delete, cfg);
      (forall i :: 0 <= i < 3 ==> a[i] !in chain) ==> ExecuteAll(ExecuteAll(chain, a), d) == chain
  {
    var a := Rules(Append, cfg);
    var d := Rules(Delete, cfg);
    forall i | 0 <= i < 3
      ensures a[i].action == Append && d[i].action == Delete && d[i].(action := Append) == a[i]
    {
      RuleListsAgree(cfg, i);
    }
    AppendsThenDeletes(chain, a, d);
  }

  /** A delete loop whose commands succeed exactly on the first `n` rules (the ones
      present, since `iptables -D` fails on a rule the chain does not hold) removes
      precisely the `n` rules an interrupted append loop left behind. */
  lemma DeleteLoopUndoesPrefix(chain: Chain, appends: seq<Rule>, deletes: seq<Rule>, disable: seq<ExecOutcome>, n: nat)
    requires Mirrors(deletes, appends) && |disable| == |deletes| && n <= |appends|
    requires forall i :: 0 <= i < |appends| ==> appends[i] !in chain
    requires forall i :: 0 <= i < |disable| ==> (disable[i].ExecOk? <==> i < n)
    ensures ExecuteAll(chain + appends[..n], Effective(RunRules(deletes, disable))) == chain
  {
    var report := RunRules(deletes, disable);
    if n < |deletes| {
      assert !disable[n].ExecOk?;
      var k := |report.executed| - 1;
      assert k <= n && disable[k].ExecFailed?;
    }
    assert Effective(report) == deletes[..n];
    assert Mirrors(deletes[..n], appends[..n]);
    DeletesUndoAppends(chain, deletes[..n], appends[..n]);
  }

}

=== FILE: lifecycle.dfy ===
/** `Init` and `Cleanup` of unix/init.go as a sequence of observable events. `Init`
    registers with the wait group and defers `Cleanup`, creates the cgroup, applies the
    iptables rules and signals `initDone`; a failure of either step sends one error on
    `errChan` and returns. On success it starts the locators and the reconciliation
    loop and waits for cancellation. On every way out the deferred `Cleanup` runs
    `disableRules`, logs its result whichever it is, and marks the wait group done.
    The outcomes of the directory creation and of every iptables run are inputs. */
module Lifecycle {
  import opened Results
  import opened Cgroup
  import opened Iptables

  /** The errors `Init` sends: "failed to create cgroup: ..." and "failed to apply
      iptables rule: ...". */
  datatype InitError = CgroupFailed(fsError: FsError) | IptablesFailed(ruleError: RuleError)

  datatype Event =
    | WaitGroupAdd
    | MakeCgroupDir
    | RunIptables(rule: Rule)
    | SendError(err: InitError)
    | SignalInitDone
    | ServeUntilCancelled
    | LogCleanup(result: ErrValue<RuleError>)
    | WaitGroupDone

  /** The iptables runs of a rule loop, in order. */
  function Runs(rules: seq<Rule>): (t: seq<Event>)
    ensures |t| == |rules|
    ensures forall i :: 0 <= i < |t| ==> t[i] == RunIptables(rules[i])
  {
    if |rules| == 0 then [] else [RunIptables(rules[0])] + Runs(rules[1..])
  }

  /** The rules a trace runs iptables with, in order. */
  function RulesRun(t: seq<Event>): seq<Rule> {
    if |t| == 0 then [] else (if t[0].RunIptables? then [t[0].rule] else []) + RulesRun(t[1..])
  }

  lemma {:induction false} RulesRunConcat(a: seq<Event>, b: seq<Event>)
    ensures RulesRun(a + b) == RulesRun(a) + RulesRun(b)
  {
    if |a| == 0 {
      assert a + b == b;
    } else {
      assert (a + b)[0] == a[0];
      assert (a + b)[1..] == a[1..] + b;
      RulesRunConcat(a[1..], b);
    }
  }

  lemma {:induction false} RulesRunOfRuns(rules: seq<Rule>)
    ensures RulesRun(Runs(rules)) == rules
  {
    if |rules| > 0 {
      assert Runs(rules)[1..] == Runs(rules[1..]);
      RulesRunOfRuns(rules[1..]);
    }
  }

  /** How many errors a trace sends on `errChan`. */
  function ErrorsSent(t: seq<Event>): nat {
    if |t| == 0 then 0 else (if t[0].SendError? then 1 else 0) + ErrorsSent(t[1..])
  }

  /** An iptables run that appends a rule. */
  predicate IsAppend(e: Event) {
    e.RunIptables? && e.rule.action == Append
  }

  /** An iptables run that deletes a rule. */
  predicate IsDelete(e: Event) {
    e.RunIptables? && e.rule.action == Delete
  }

  /** `initDone` comes after every rule was applied. */
  predicate SignalAfterAppends(t: seq<Event>) {
    forall i, j :: 0 <= i < |t| && 0 <= j < |t| && IsAppend(t[i]) && t[j] == SignalInitDone ==> i < j
  }

  /** Nothing `Cleanup` does. */
  predicate NoCleanupEvents(t: seq<Event>) {
    forall i :: 0 <= i < |t| ==> !IsDelete(t[i]) && !t[i].LogCleanup? && t[i] != WaitGroupDone
  }

  /** No rule applied, no error sent, no readiness signalled. */
  predicate NoStartupEvents(t: seq<Event>) {
    forall i :: 0 <= i < |t| ==> !IsAppend(t[i]) && !t[i].SendError? && t[i] != SignalInitDone
  }

  /** A sent error ends the trace: `Init` returns right after sending it. */
  predicate ErrorIsLast(t: seq<Event>) {
    forall i :: 0 <= i < |t| && t[i].SendError? ==> i == |t| - 1
  }

  /** The locators and the reconciliation loop are started exactly right after
      `initDone`: every signal is followed by serving, and serving happens nowhere else. */
  predicate ServesRightAfterSignal(t: seq<Event>) {
    && (|t| > 0 ==> t[0] != ServeUntilCancelled && t[|t| - 1] != SignalInitDone)
    && forall i :: 0 < i < |t| ==> (t[i] == ServeUntilCancelled <==> t[i - 1] == SignalInitDone)
  }

  /** What the deferred `Cleanup` does: delete a rule, log, mark the wait group done. */
  predicate IsCleanupEvent(e: Event) {
    IsDelete(e) || e.LogCleanup? || e == WaitGroupDone
  }

  /** The cgroup directory is created, and before any rule is applied. */
  predicate DirBeforeAppends(t: seq<Event>) {
    && MakeCgroupDir in t
    && forall i, j :: 0 <= i < |t| && 0 <= j < |t| && t[i] == MakeCgroupDir && IsAppend(t[j]) ==> i < j
  }

  /** Every rule deletion comes after every rule application, error and signal. */
  predicate CleanupAfterStartup(t: seq<Event>) {
    forall i, j :: 0 <= i < |t| && 0 <= j < |t| && IsDelete(t[j])
      && (IsAppend(t[i]) || t[i].SendError? || t[i] == SignalInitDone)
      ==> i < j
  }

  /** A rule loop runs at least its first rule, and only rules of its list. */
  lemma LoopRunsSameAction(cfg: Config, rules: seq<Rule>, outcomes: seq<ExecOutcome>, a: Action)
    requires |outcomes| == |rules| == 3
    requires rules == Rules(a, cfg)
    ensures var executed := RunRules(rules, outcomes).executed;
      |executed| > 0 && executed[0] == rules[0]
      && forall i :: 0 <= i < |executed| ==> executed[i].action == a
  {
    var report := RunRules(rules, outcomes);
    if report.result.Nil? {
      assert report.executed == rules;
    }
    forall i | 0 <= i < 3 ensures rules[i].action == a {
      RuleListsAgree(cfg, i);
    }
  }

  /** `Cleanup`: `disableRules` always runs (at least its first rule is tried), its
      result is only logged, and the wait group is marked done either way. */
  function Cleanup(cfg: Config, disable: seq<ExecOutcome>): (t: seq<Event>)
    requires |disable| == 3
    ensures |t| >= 3 && t[0] == RunIptables(Rules(Delete, cfg)[0])
    ensures t[|t| - 2] == LogCleanup(RunRules(Rules(Delete, cfg), disable).result) && t[|t| - 1] == WaitGroupDone
    ensures forall i :: 0 <= i < |t| - 2 ==> IsDelete(t[i])
    ensures RulesRun(t) == RunRules(Rules(Delete, cfg), disable).executed
  {
    var rules := Rules(Delete, cfg);
    var report := RunRules(rules, disable);
    LoopRunsSameAction(cfg, rules, disable, Delete);
    var tail := [LogCleanup(report.result), WaitGroupDone];
    assert RulesRun(tail) == [] by {
      assert tail[1..] == [WaitGroupDone] && RulesRun(tail[1..]) == RulesRun([]);
    }
    RulesRunOfRuns(report.executed);
    RulesRunConcat(Runs(report.executed), tail);
    Runs(report.executed) + tail
  }

  /** What `Init` does once the cgroup exists: run the append loop, then either send
      its error or signal `initDone` and serve until cancelled. */
  function ApplyStep(cfg: Config, apply: seq<ExecOutcome>): seq<Event>
    requires |apply| == 3
  {
    var report := RunRules(Rules(Append, cfg), apply);
    Runs(report.executed) + AfterApply(report.result)
  }

  /** What follows the append loop: its error is sent, or `initDone` is signalled and
      the locators and the reconciliation loop run until cancellation. */
  function AfterApply(result: ErrValue<RuleError>): seq<Event> {
    if result.Err? then [SendError(IptablesFailed(result.error))]
    else [SignalInitDone, ServeUntilCancelled]
  }

  /** The part of `Init` before the deferred `Cleanup`. */
  function Startup(cfg: Config, mkdir: MkdirOutcome, apply: seq<ExecOutcome>): seq<Event>
    requires |apply| == 3
  {
    var created := CreateCgroup(mkdir);
    [WaitGroupAdd, MakeCgroupDir]
    + if created.Err? then [SendError(CgroupFailed(created.error))] else ApplyStep(cfg, apply)
  }

  /** `Init` from start to return, including the deferred `Cleanup`. */
  function Init(cfg: Config, mkdir: MkdirOutcome, apply: seq<ExecOutcome>, disable: seq<ExecOutcome>): seq<Event>
    requires |apply| == 3 && |disable| == 3
  {
    Startup(cfg, mkdir, apply) + Cleanup(cfg, disable)
  }

  lemma {:induction false} ErrorsSentAppend(a: seq<Event>, b: seq<Event>)
    ensures ErrorsSent(a + b) == ErrorsSent(a) + ErrorsSent(b)
  {
    if |a| == 0 {
      assert a + b == b;
    } else {
      assert (a + b)[0] == a[0];
      assert (a + b)[1..] == a[1..] + b;
      ErrorsSentAppend(a[1..], b);
    }
  }

  lemma {:induction false} NoErrorsSent(t: seq<Event>)
    requires forall i :: 0 <= i < |t| ==> !t[i].SendError?
    ensures ErrorsSent(t) == 0
  {
    if |t| > 0 {
      NoErrorsSent(t[1..]);
    }
  }

  /** No rule is applied. */
  predicate NoAppends(t: seq<Event>) {
    forall i :: 0 <= i < |t| ==> !IsAppend(t[i])
  }

  lemma NoCleanupConcat(a: seq<Event>, b: seq<Event>)
    requires NoCleanupEvents(a) && NoCleanupEvents(b)
    ensures NoCleanupEvents(a + b)
  {
    var t := a + b;
    assert forall k :: |a| <= k < |t| ==> t[k] == b[k - |a|];
  }

  lemma NoAppendsConcat(a: seq<Event>, b: seq<Event>)
    requires NoAppends(a) && NoAppends(b)
    ensures NoAppends(a + b)
  {
    var t := a + b;
    assert forall k :: |a| <= k < |t| ==> t[k] == b[k - |a|];
  }

  /** Two traces in a row keep `initDone` after the appends, unless the first signals
      and the second then applies a rule. */
  lemma SignalAfterAppendsConcat(a: seq<Event>, b: seq<Event>)
    requires SignalAfterAppends(a) && SignalAfterAppends(b)
    requires SignalInitDone !in a || NoAppends(b)
    ensures SignalAfterAppends(a + b)
  {
    var t := a + b;
    assert forall k :: 0 <= k < |a| ==> t[k] == a[k];
    assert forall k :: |a| <= k < |t| ==> t[k] == b[k - |a|];
  }

  /** The runs of an append loop: rules applied, nothing else. */
  lemma RunsOfAppends(rules: seq<Rule>)
    requires forall i :: 0 <= i < |rules| ==> rules[i].action == Append
    ensures var t := Runs(rules);
      SignalInitDone !in t && ErrorsSent(t) == 0 && NoCleanupEvents(t) && SignalAfterAppends(t)
  {
    NoErrorsSent(Runs(rules));
  }

  lemma {:induction false} ServesConcat(a: seq<Event>, b: seq<Event>)
    requires ServesRightAfterSignal(a) && ServesRightAfterSignal(b)
    ensures ServesRightAfterSignal(a + b)
  {
    var t := a + b;
    assert forall k :: 0 <= k < |a| ==> t[k] == a[k];
    assert forall k :: |a| <= k < |t| ==> t[k] == b[k - |a|];
  }

  lemma {:induction false} ErrorIsLastConcat(a: seq<Event>, b: seq<Event>)
    requires forall i :: 0 <= i < |a| ==> !a[i].SendError?
    requires ErrorIsLast(b)
    ensures ErrorIsLast(a + b)
  {
    var t := a + b;
    assert forall k :: 0 <= k < |a| ==> t[k] == a[k];
    assert forall k :: |a| <= k < |t| ==> t[k] == b[k - |a|];
  }

  /** The runs of a rule loop send no error and neither signal nor serve. */
  lemma RunsAreQuiet(rules: seq<Rule>)
    ensures var t := Runs(rules);
      (forall i :: 0 <= i < |t| ==> !t[i].SendError?) && ServesRightAfterSignal(t) && MakeCgroupDir !in t
  {
  }

  /** Once the cgroup exists: the rules run are exactly those the append loop ran, in
      its order; `initDone` is signalled exactly when every rule was applied, and then
      after all of them; otherwise exactly one error is sent, the loop's own, and it
      ends the trace. */
  lemma ApplyStepOrder(cfg: Config, apply: seq<ExecOutcome>)
    requires |apply| == 3
    ensures var t := ApplyStep(cfg, apply);
      var result := RunRules(Rules(Append, cfg), apply).result;
      && RulesRun(t) == RunRules(Rules(Append, cfg), apply).executed
      && |t| > 0 && (result.Err? ==> t[|t| - 1] == SendError(IptablesFailed(result.error)))
      && MakeCgroupDir !in t
      && (SignalInitDone in t <==> forall i :: 0 <= i < 3 ==> apply[i].ExecOk?)
      && ErrorsSent(t) == (if SignalInitDone in t then 0 else 1)
      && SignalAfterAppends(t)
      && NoCleanupEvents(t)
      && ErrorIsLast(t)
      && ServesRightAfterSignal(t)
  {
    var rules := Rules(Append, cfg);
    var report := RunRules(rules, apply);
    LoopRunsSameAction(cfg, rules, apply, Append);
    LoopThenResult(report.executed, report.result);
    LoopThenResultRuns(report.executed, report.result);
  }

  /** An append loop followed by what comes after it, for either result of the loop. */
  lemma {:induction false} LoopThenResult(executed: seq<Rule>, result: ErrValue<RuleError>)
    requires forall i :: 0 <= i < |executed| ==> executed[i].action == Append
    ensures var t := Runs(executed) + AfterApply(result);
      && (SignalInitDone in t <==> result.Nil?)
      && ErrorsSent(t) == (if result.Nil? then 0 else 1)
      && SignalAfterAppends(t)
      && NoCleanupEvents(t)
      && ErrorIsLast(t)
      && ServesRightAfterSignal(t)
  {
    var runs, last := Runs(executed), AfterApply(result);
    RunsOfAppends(executed);
    RunsAreQuiet(executed);
    AfterApplyIsQuiet(result);
    ErrorsSentAppend(runs, last);
    SignalAfterAppendsConcat(runs, last);
    NoCleanupConcat(runs, last);
    ErrorIsLastConcat(runs, last);
    ServesConcat(runs, last);
  }

  /** The append loop followed by what comes after it runs exactly the loop's rules,
      creates no directory, and ends with the loop's error when there is one. */
  lemma {:induction false} LoopThenResultRuns(executed: seq<Rule>, result: ErrValue<RuleError>)
    ensures var t := Runs(executed) + AfterApply(result);
      && RulesRun(t) == executed
      && |t| > 0 && (result.Err? ==> t[|t| - 1] == SendError(IptablesFailed(result.error)))
      && MakeCgroupDir !in t
  {
    var runs, last := Runs(executed), AfterApply(result);
    RunsAreQuiet(executed);
    AfterApplyIsQuiet(result);
    RulesRunOfRuns(executed);
    RulesRunConcat(runs, last);
    assert (runs + last)[|runs + last| - 1] == last[|last| - 1];
  }

  /** What follows the append loop runs no rule and deletes nothing; it sends the
      loop's error as its last event, or signals `initDone` and then serves. */
  lemma {:induction false} AfterApplyIsQuiet(result: ErrValue<RuleError>)
    ensures var last := AfterApply(result);
      && RulesRun(last) == [] && MakeCgroupDir !in last
      && (SignalInitDone in last <==> result.Nil?)
      && ErrorsSent(last) == (if result.Nil? then 0 else 1)
      && NoAppends(last) && NoCleanupEvents(last) && SignalAfterAppends(last)
      && ErrorIsLast(last) && ServesRightAfterSignal(last)
  {
    var last := AfterApply(result);
    if result.Err? {
      assert last == [SendError(IptablesFailed(result.error))];
      assert last[1..] == [];
      assert ErrorsSent(last) == 1 + ErrorsSent([]);
    } else {
      assert last == [SignalInitDone, ServeUntilCancelled];
      var serve: seq<Event> := [ServeUntilCancelled];
      assert serve[1..] == [];
      assert RulesRun(serve) == [] && ErrorsSent(serve) == 0;
      assert last[1..] == serve;
    }
  }

  /** What happens before `Cleanup`: `Init` registers with the wait group first, then
      creates the directory; the rules run are those of the append loop, and only
      after the cgroup was created; `initDone` is signalled only after both steps
      succeeded and after every rule was applied, and otherwise exactly one error is
      sent, the failing step's own, and it ends the trace. Nothing is deleted. */
  lemma StartupOrder(cfg: Config, mkdir: MkdirOutcome, apply: seq<ExecOutcome>)
    requires |apply| == 3
    ensures var t := Startup(cfg, mkdir, apply);
      var created, result := CreateCgroup(mkdir), RunRules(Rules(Append, cfg), apply).result;
      && |t| >= 3 && t[0] == WaitGroupAdd && DirBeforeAppends(t)
      && (created.Err? ==> t[|t| - 1] == SendError(CgroupFailed(created.error)))
      && (created.Nil? && result.Err? ==> t[|t| - 1] == SendError(IptablesFailed(result.error)))
      && RulesRun(t) == (if CreateCgroup(mkdir).Nil? then RunRules(Rules(Append, cfg), apply).executed else [])
      && (SignalInitDone in t <==> CreateCgroup(mkdir).Nil? && forall i :: 0 <= i < 3 ==> apply[i].ExecOk?)
      && ErrorsSent(t) == (if SignalInitDone in t then 0 else 1)
      && (!NoAppends(t) ==> CreateCgroup(mkdir).Nil?)
      && SignalAfterAppends(t)
      && NoCleanupEvents(t)
      && ErrorIsLast(t)
      && ServesRightAfterSignal(t)
  {
    var created := CreateCgroup(mkdir);
    if created.Err? {
      var rest := [SendError(CgroupFailed(created.error))];
      assert Startup(cfg, mkdir, apply) == [WaitGroupAdd, MakeCgroupDir] + rest;
      assert ErrorsSent(rest) == 1 + ErrorsSent([]);
      assert NoAppends(rest) && SignalAfterAppends(rest) && NoCleanupEvents(rest);
      assert ErrorIsLast(rest) && ServesRightAfterSignal(rest);
      AfterRegistration(rest);
      RegistrationComesFirst(rest);
    } else {
      var rest := ApplyStep(cfg, apply);
      assert Startup(cfg, mkdir, apply) == [WaitGroupAdd, MakeCgroupDir] + rest;
      ApplyStepOrder(cfg, apply);
      AfterRegistration(rest);
      RegistrationComesFirst(rest);
    }
  }

  /** Registering with the wait group and creating the directory apply no rule, send
      no error and signal nothing. */
  lemma AfterRegistration(rest: seq<Event>)
    requires SignalAfterAppends(rest) && NoCleanupEvents(rest)
    requires ErrorIsLast(rest) && ServesRightAfterSignal(rest)
    ensures var t := [WaitGroupAdd, MakeCgroupDir] + rest;
      && RulesRun(t) == RulesRun(rest)
      && (SignalInitDone in t <==> SignalInitDone in rest)
      && ErrorsSent(t) == ErrorsSent(rest)
      && (NoAppends(t) <==> NoAppends(rest))
      && SignalAfterAppends(t) && NoCleanupEvents(t)
      && ErrorIsLast(t) && ServesRightAfterSignal(t)
  {
    var head: seq<Event> := [WaitGroupAdd, MakeCgroupDir];
    var t := head + rest;
    RulesRunConcat(head, rest);
    ErrorIsLastConcat(head, rest);
    ServesConcat(head, rest);
    assert NoAppends(head) && NoCleanupEvents(head) && SignalAfterAppends(head);
    NoErrorsSent(head);
    ErrorsSentAppend(head, rest);
    SignalAfterAppendsConcat(head, rest);
    NoCleanupConcat(head, rest);
    if NoAppends(rest) {
      NoAppendsConcat(head, rest);
    }
    assert forall k :: 2 <= k < |t| ==> t[k] == rest[k - 2];
  }

  /** `Init` registers with the wait group, then creates the directory before anything
      else; the trace still ends as what follows ends. */
  lemma {:induction false} RegistrationComesFirst(rest: seq<Event>)
    requires |rest| > 0 && MakeCgroupDir !in rest
    ensures var t := [WaitGroupAdd, MakeCgroupDir] + rest;
      t[0] == WaitGroupAdd && DirBeforeAppends(t) && t[|t| - 1] == rest[|rest| - 1]
  {
    var t := [WaitGroupAdd, MakeCgroupDir] + rest;
    assert t[1] == MakeCgroupDir;
    assert forall k :: 2 <= k < |t| ==> t[k] == rest[k - 2];
  }

  /** Cleanup events after a trace keep its directory creation before every append. */
  lemma {:induction false} DirBeforeAppendsConcat(s: seq<Event>, c: seq<Event>)
    requires DirBeforeAppends(s)
    requires forall k :: 0 <= k < |c| ==> IsCleanupEvent(c[k])
    ensures DirBeforeAppends(s + c)
  {
    var t := s + c;
    assert forall k :: 0 <= k < |s| ==> t[k] == s[k];
    assert forall k :: |s| <= k < |t| ==> t[k] == c[k - |s|];
  }

  /** `Cleanup` sends no error, signals nothing and applies nothing. */
  lemma CleanupOnlyDeletes(cfg: Config, disable: seq<ExecOutcome>)
    requires |disable| == 3
    ensures NoStartupEvents(Cleanup(cfg, disable))
    ensures ErrorsSent(Cleanup(cfg, disable)) == 0
  {
    NoErrorsSent(Cleanup(cfg, disable));
  }

  lemma Sequenced(s: seq<Event>, c: seq<Event>)
    requires NoCleanupEvents(s) && NoStartupEvents(c)
    ensures CleanupAfterStartup(s + c)
    ensures SignalAfterAppends(s) ==> SignalAfterAppends(s + c)
  {
    var t := s + c;
    assert forall k :: 0 <= k < |s| ==> t[k] == s[k];
    assert forall k :: |s| <= k < |t| ==> t[k] == c[k - |s|];
  }

  /** `Init` signals `initDone` exactly when the cgroup was created and all three
      rules were applied, and then after all of them; otherwise it sends exactly one
      error. The directory is created, and rules are applied only after it, and the
      rules run are those of the two loops. */
  lemma InitSignalsOnlyAfterBothSteps(cfg: Config, mkdir: MkdirOutcome, apply: seq<ExecOutcome>, disable: seq<ExecOutcome>)
    requires |apply| == 3 && |disable| == 3
    ensures var t := Init(cfg, mkdir, apply, disable);
      && RulesRun(t) == (if CreateCgroup(mkdir).Nil? then RunRules(Rules(Append, cfg), apply).executed else [])
                        + RunRules(Rules(Delete, cfg), disable).executed
      && (SignalInitDone in t <==> CreateCgroup(mkdir).Nil? && forall i :: 0 <= i < 3 ==> apply[i].ExecOk?)
      && ErrorsSent(t) == (if SignalInitDone in t then 0 else 1)
      && (!NoAppends(t) ==> CreateCgroup(mkdir).Nil?)
      && DirBeforeAppends(t)
      && SignalAfterAppends(t)
  {
    var s := Startup(cfg, mkdir, apply);
    var c := Cleanup(cfg, disable);
    StartupOrder(cfg, mkdir, apply);
    CleanupOnlyDeletes(cfg, disable);
    CleanupIsCleanup(cfg, disable);
    DirBeforeAppendsConcat(s, c);
    InitRunsTheLoops(cfg, mkdir, apply, disable);
    var t := Init(cfg, mkdir, apply, disable);
    assert t == s + c;
    ErrorsSentAppend(s, c);
    Sequenced(s, c);
    if NoAppends(s) {
      NoAppendsConcat(s, c);
    }
  }

  /** The iptables runs of `Init`, in order, are exactly those of the append loop, when
      the cgroup was created, followed by those of the delete loop. */
  lemma {:induction false} InitRunsTheLoops(cfg: Config, mkdir: MkdirOutcome, apply: seq<ExecOutcome>, disable: seq<ExecOutcome>)
    requires |apply| == 3 && |disable| == 3
    ensures RulesRun(Init(cfg, mkdir, apply, disable))
      == (if CreateCgroup(mkdir).Nil? then RunRules(Rules(Append, cfg), apply).executed else [])
         + RunRules(Rules(Delete, cfg), disable).executed
  {
    var s := Startup(cfg, mkdir, apply);
    var c := Cleanup(cfg, disable);
    StartupOrder(cfg, mkdir, apply);
    assert Init(cfg, mkdir, apply, disable) == s + c;
    RulesRunConcat(s, c);
  }

  /** `Init` returns right after sending an error: only the deferred `Cleanup` follows
      it. */
  lemma {:induction false} InitStopsAtError(cfg: Config, mkdir: MkdirOutcome, apply: seq<ExecOutcome>, disable: seq<ExecOutcome>)
    requires |apply| == 3 && |disable| == 3
    ensures var t := Init(cfg, mkdir, apply, disable);
      forall i, j :: 0 <= i < j < |t| && t[i].SendError? ==> IsCleanupEvent(t[j])
  {
    var s := Startup(cfg, mkdir, apply);
    var c := Cleanup(cfg, disable);
    StartupOrder(cfg, mkdir, apply);
    CleanupIsCleanup(cfg, disable);
    assert Init(cfg, mkdir, apply, disable) == s + c;
    ErrorThenCleanup(s, c);
  }

  /** The locators and the reconciliation loop are started exactly when, and right
      after, `initDone` is signalled. */
  lemma {:induction false} InitServesRightAfterSignal(cfg: Config, mkdir: MkdirOutcome, apply: seq<ExecOutcome>, disable: seq<ExecOutcome>)
    requires |apply| == 3 && |disable| == 3
    ensures var t := Init(cfg, mkdir, apply, disable);
      ServesRightAfterSignal(t) && (ServeUntilCancelled in t <==> SignalInitDone in t)
  {
    var s := Startup(cfg, mkdir, apply);
    var c := Cleanup(cfg, disable);
    StartupOrder(cfg, mkdir, apply);
    CleanupIsCleanup(cfg, disable);
    var t := Init(cfg, mkdir, apply, disable);
    assert t == s + c;
    ServesConcat(s, c);
    ServeIffSignal(t);
  }

  /** Every event of `Cleanup` is a cleanup event, so it neither signals nor serves. */
  lemma {:induction false} CleanupIsCleanup(cfg: Config, disable: seq<ExecOutcome>)
    requires |disable| == 3
    ensures var c := Cleanup(cfg, disable);
      (forall k :: 0 <= k < |c| ==> IsCleanupEvent(c[k])) && ServesRightAfterSignal(c)
  {
  }

  lemma {:induction false} ErrorThenCleanup(s: seq<Event>, c: seq<Event>)
    requires ErrorIsLast(s)
    requires forall k :: 0 <= k < |c| ==> IsCleanupEvent(c[k])
    ensures var t := s + c; forall i, j :: 0 <= i < j < |t| && t[i].SendError? ==> IsCleanupEvent(t[j])
  {
    var t := s + c;
    assert forall k :: 0 <= k < |s| ==> t[k] == s[k];
    assert forall k :: |s| <= k < |t| ==> t[k] == c[k - |s|];
  }

  /** With serving exactly right after signalling, one occurs exactly when the other
      does. */
  lemma {:induction false} ServeIffSignal(t: seq<Event>)
    requires ServesRightAfterSignal(t)
    ensures ServeUntilCancelled in t <==> SignalInitDone in t
  {
    if ServeUntilCancelled in t {
      var i :| 0 <= i < |t| && t[i] == ServeUntilCancelled;
      assert t[i - 1] == SignalInitDone;
    }
    if SignalInitDone in t {
      var i :| 0 <= i < |t| && t[i] == SignalInitDone;
      assert t[i + 1] == ServeUntilCancelled;
    }
  }

  /** Every way through `Init` ends in the deferred `Cleanup`: after everything else,
      it tries to delete the first rule whatever happened before, logs the result of
      `disableRules` whether it succeeded or not, and marks the wait group done. */
  lemma InitAlwaysCleansUp(cfg: Config, mkdir: MkdirOutcome, apply: seq<ExecOutcome>, disable: seq<ExecOutcome>)
    requires |apply| == 3 && |disable| == 3
    ensures var t := Init(cfg, mkdir, apply, disable);
      && (exists j :: 0 <= j < |t| && t[j] == RunIptables(Rules(Delete, cfg)[0]))
      && CleanupAfterStartup(t)
      && t[|t| - 2] == LogCleanup(RunRules(Rules(Delete, cfg), disable).result)
      && t[|t| - 1] == WaitGroupDone
  {
    var s := Startup(cfg, mkdir, apply);
    var c := Cleanup(cfg, disable);
    StartupOrder(cfg, mkdir, apply);
    CleanupOnlyDeletes(cfg, disable);
    Sequenced(s, c);
    var t := Init(cfg, mkdir, apply, disable);
    assert t == s + c;
    assert t[|s|] == c[0];
    assert t[|t| - 2] == c[|c| - 2] && t[|t| - 1] == c[|c| - 1];
  }

  /** The rules installed when `Init` reaches its deferred `Cleanup`: none when the
      cgroup could not be created, otherwise those of the append loop that succeeded,
      a prefix of the rule list that ends just before the first failing rule. Nothing
      is rolled back. */
  function Installed(cfg: Config, mkdir: MkdirOutcome, apply: seq<ExecOutcome>): (rs: seq<Rule>)
    requires |apply| == 3
    ensures |rs| <= 3 && rs == Rules(Append, cfg)[..|rs|]
    ensures |rs| == 3 <==> CreateCgroup(mkdir).Nil? && forall i :: 0 <= i < 3 ==> apply[i].ExecOk?
    ensures CreateCgroup(mkdir).Err? ==> rs == []
    ensures CreateCgroup(mkdir).Nil? ==>
      (forall i :: 0 <= i < |rs| ==> apply[i].ExecOk?) && (|rs| < 3 ==> !apply[|rs|].ExecOk?)
  {
    if CreateCgroup(mkdir).Err? then []
    else
      var rules := Rules(Append, cfg);
      var report := RunRules(rules, apply);
      assert report.result.Err? ==> !apply[|report.executed| - 1].ExecOk?;
      Effective(report)
  }

  /** `applyIptablesRules` does not roll back, but the deferred `Cleanup` runs on every
      way out of `Init`. When `iptables -D` fails exactly on the rules the chain does not
      hold, and the chain held none of the three rules before, `Cleanup` removes every
      rule `Init` installed, whichever step failed: the chain is left as it was found. */
  lemma CleanupRemovesWhatInitInstalled(cfg: Config, mkdir: MkdirOutcome, chain: Chain,
                                        apply: seq<ExecOutcome>, disable: seq<ExecOutcome>)
    requires |apply| == 3 && |disable| == 3
    requires forall i :: 0 <= i < 3 ==> Rules(Append, cfg)[i] !in chain
    requires forall i :: 0 <= i < 3 ==> (disable[i].ExecOk? <==> i < |Installed(cfg, mkdir, apply)|)
    ensures var installed := ExecuteAll(chain, Installed(cfg, mkdir, apply));
      ExecuteAll(installed, Effective(RunRules(Rules(Delete, cfg), disable))) == chain
  {
    var a := Rules(Append, cfg);
    var d := Rules(Delete, cfg);
    forall i | 0 <= i < 3
      ensures a[i].action == Append && d[i].action == Delete && d[i].(action := Append) == a[i]
    {
      RuleListsAgree(cfg, i);
    }
    var rs := Installed(cfg, mkdir, apply);
    assert forall i :: 0 <= i < |rs| ==> rs[i].action == Append;
    AppendsExtendChain(chain, rs);
    DeleteLoopUndoesPrefix(chain, a, d, disable, |rs|);
  }

  /** `disableRules` deletes the three rules whether or not `Init` installed them. When
      the chain already held the port 80 rule and `Init` installed nothing, because
      either step failed, `Cleanup` still deletes that rule, although every `iptables -D`
      fails exactly on the rules the chain lacks. */
  lemma CleanupDeletesRuleInitNeverInstalled(cfg: Config, mkdir: MkdirOutcome, status: string, output: string)
    ensures var chain := [Rules(Append, cfg)[0]];
      var apply := [ExecFailed(status, output), ExecOk, ExecOk];
      var disable := [ExecOk, ExecFailed(status, output), ExecFailed(status, output)];
      && Installed(cfg, mkdir, apply) == []
      && (forall i :: 0 <= i < 3 ==> (disable[i].ExecOk? <==> Rules(Append, cfg)[i] in chain))
      && ExecuteAll(ExecuteAll(chain, Installed(cfg, mkdir, apply)),
                    Effective(RunRules(Rules(Delete, cfg), disable))) == []
  {
    var a := Rules(Append, cfg);
    var disable := [ExecOk, ExecFailed(status, output), ExecFailed(status, output)];
    var report := RunRules(Rules(Delete, cfg), disable);
    assert !disable[1].ExecOk?;
    assert report.result.Err?;
    assert |report.executed| == 2;
    assert Effective(report) == [Rules(Delete, cfg)[0]];
    assert a[1] != a[0] && a[2] != a[0];
  }

}

=== FILE: locator.dfy ===
/** The process locator of unix/init.go (`findPIDs`): once per tick it runs
    `pgrep -f <name>` and, when that succeeds with at least one PID, delivers the
    batch on the PID channel. The pgrep run is an input; the one-second sleep,
    the channel and cancellation are not modelled (a run is a finite sequence of
    ticks). */
module Locator {
  import opened Results
  import opened Text

  /** What `exec.Command("pgrep", "-f", name).Output()` returned. */
  datatype PgrepOutcome = PgrepFailed | PgrepOutput(stdout: string)

  /** `pidsInfo`: one batch of PIDs found for one process name. */
  datatype PidsInfo = PidsInfo(processName: string, pids: seq<string>)

  /** One tick of `findPIDs`: the batch it sends, if any. A failed pgrep sends nothing;
      a successful one sends the white-space-separated fields of its output, and only
      when there is at least one. */
  function PollOnce(name: string, run: PgrepOutcome): (sent: Option<PidsInfo>)
    ensures sent.Some? <==> run.PgrepOutput? && !AllSpace(run.stdout)
    ensures sent.Some? ==> sent.value.processName == name && |sent.value.pids| > 0
    ensures sent.Some? ==> forall i :: 0 <= i < |sent.value.pids| ==> IsWord(sent.value.pids[i])
    ensures sent.Some? ==> Concat(sent.value.pids) == NonSpace(run.stdout)
  {
    match run
    case PgrepFailed => None
    case PgrepOutput(out) =>
      FieldsKeepNonSpace(out);
      var pids := Fields(out);
      if |pids| > 0 then Some(PidsInfo(name, pids)) else None
  }

  /** Every batch a locator for `name` sends over a run of ticks, in order. */
  function FindPids(name: string, runs: seq<PgrepOutcome>): (sent: seq<PidsInfo>)
    ensures |sent| <= |runs|
    ensures forall k :: 0 <= k < |sent| ==> sent[k].processName == name && |sent[k].pids| > 0
    ensures forall k, i :: 0 <= k < |sent| && 0 <= i < |sent[k].pids| ==> IsWord(sent[k].pids[i])
    ensures forall k :: 0 <= k < |sent| ==>
      exists t :: 0 <= t < |runs| && runs[t].PgrepOutput? && sent[k].pids == Fields(runs[t].stdout)
  {
    if |runs| == 0 then []
    else
      var first := PollOnce(name, runs[0]);
      (if first.Some? then [first.value] else []) + FindPids(name, runs[1..])
  }

  /** Every pgrep output is some PIDs laid out between white space (`Gaps`), and a tick
      sends exactly those PIDs, however much white space separates them. */
  lemma {:induction false} PollOnceReadsEveryLayout(name: string, pids: seq<string>, gaps: seq<string>)
    requires |gaps| == |pids| + 1 && Separating(gaps)
    requires forall i :: 0 <= i < |pids| ==> IsWord(pids[i])
    ensures PollOnce(name, PgrepOutput(Layout(pids, gaps)))
      == if |pids| == 0 then None else Some(PidsInfo(name, pids))
  {
    FieldsOfLayout(pids, gaps);
  }

  /** Whether a tick's pgrep run makes the locator send a batch. */
  predicate Sends(run: PgrepOutcome) {
    run.PgrepOutput? && !AllSpace(run.stdout)
  }

  /** The ticks from `from` on whose pgrep run sends a batch, in increasing order. */
  function SendingTicks(runs: seq<PgrepOutcome>, from: nat): (ts: seq<nat>)
    requires from <= |runs|
    decreases |runs| - from
    ensures forall k :: 0 <= k < |ts| ==> from <= ts[k] < |runs| && Sends(runs[ts[k]])
    ensures forall k, l :: 0 <= k < l < |ts| ==> ts[k] < ts[l]
    ensures forall t :: from <= t < |runs| && Sends(runs[t]) ==> t in ts
  {
    if from == |runs| then []
    else (if Sends(runs[from]) then [from] else []) + SendingTicks(runs, from + 1)
  }

  /** The locator sends one batch for every tick whose pgrep printed a PID, and only
      for those, in tick order: the `k`-th batch is what the `k`-th such tick polls. */
  lemma {:induction false} FindPidsFollowsTicks(name: string, runs: seq<PgrepOutcome>)
    ensures var sent, ts := FindPids(name, runs), SendingTicks(runs, 0);
      |sent| == |ts| && forall k :: 0 <= k < |sent| ==> PollOnce(name, runs[ts[k]]) == Some(sent[k])
  {
    FindPidsFromTick(name, runs, 0);
    assert runs[0..] == runs;
  }

  /** `FindPidsFollowsTicks` for the ticks from `from` on. */
  lemma {:induction false} FindPidsFromTick(name: string, runs: seq<PgrepOutcome>, from: nat)
    requires from <= |runs|
    decreases |runs| - from
    ensures var sent, ts := FindPids(name, runs[from..]), SendingTicks(runs, from);
      |sent| == |ts|
      && forall k :: 0 <= k < |sent| ==> PollOnce(name, runs[ts[k]]) == Some(sent[k])
  {
    if from < |runs| {
      FindPidsFromTick(name, runs, from + 1);
      var tail, rest := FindPids(name, runs[from + 1..]), SendingTicks(runs, from + 1);
      assert runs[from..][0] == runs[from] && runs[from..][1..] == runs[from + 1..];
      var first := PollOnce(name, runs[from]);
      if Sends(runs[from]) {
        var x := first.value;
        assert FindPids(name, runs[from..]) == [x] + tail;
        assert SendingTicks(runs, from) == [from] + rest;
        ConsBatches(name, runs, x, tail, from, rest);
      } else {
        assert FindPids(name, runs[from..]) == tail;
        assert SendingTicks(runs, from) == rest;
      }
    }
  }

  lemma {:induction false} ConsBatches(name: string, runs: seq<PgrepOutcome>, x: PidsInfo, tail: seq<PidsInfo>, t: nat, rest: seq<nat>)
    requires t < |runs| && PollOnce(name, runs[t]) == Some(x)
    requires |tail| == |rest| && forall k :: 0 <= k < |rest| ==> rest[k] < |runs|
    requires forall k :: 0 <= k < |tail| ==> PollOnce(name, runs[rest[k]]) == Some(tail[k])
    ensures var sent, ts := [x] + tail, [t] + rest;
      forall k :: 0 <= k < |sent| ==> ts[k] < |runs| && PollOnce(name, runs[ts[k]]) == Some(sent[k])
  {
    var sent, ts := [x] + tail, [t] + rest;
    assert forall k :: 0 < k < |sent| ==> sent[k] == tail[k - 1] && ts[k] == rest[k - 1];
  }

  /** A tick whose pgrep failed or printed nothing contributes no batch. */
  lemma {:induction false} QuietTicksSendNothing(name: string, runs: seq<PgrepOutcome>)
    requires forall t :: 0 <= t < |runs| ==> runs[t].PgrepFailed? || AllSpace(runs[t].stdout)
    ensures FindPids(name, runs) == []
  {
    if |runs| > 0 {
      QuietTicksSendNothing(name, runs[1..]);
    }
  }

  /** pgrep prints one PID per line; such output becomes exactly that batch. */
  lemma PgrepLinesBecomeBatch(name: string, pids: seq<string>)
    requires |pids| > 0
    requires forall i :: 0 <= i < |pids| ==> IsWord(pids[i])
    ensures PollOnce(name, PgrepOutput(Lines(pids))) == Some(PidsInfo(name, pids))
  {
    FieldsOfLines(pids);
  }
}

=== FILE: octets.dfy ===
/** The client's presentation of a packet's destination address: a 32-bit unsigned
    `DestIP` is cut into four bytes, most significant first, and printed in dotted
    decimal (client/client.go:86). */
module Octets {
  import opened Results
  import opened Text

  type Uint32 = x: int | 0 <= x < 0x1_0000_0000
  type Byte = x: int | 0 <= x < 0x100

  function Pow2(n: nat): (p: nat)
    ensures p > 0
  {
    if n == 0 then 1 else 2 * Pow2(n - 1)
  }

  /** Go's `x >> n` on a `uint32`, for shift counts below 32. */
  function ShiftRight(x: Uint32, n: nat): int
    requires n < 32
  {
    x / Pow2(n)
  }

  /** Go's conversion `byte(x)`: only the low eight bits survive. */
  function ToByte(x: int): Byte {
    x % 0x100
  }

  /** The four octets `net.IPv4` receives, most significant first. */
  function Split4(d: Uint32): (o: seq<Byte>)
    ensures |o| == 4
    ensures o[0] == d / 0x100_0000
    ensures o[1] == (d / 0x1_0000) % 0x100
    ensures o[2] == (d / 0x100) % 0x100
    ensures o[3] == d % 0x100
  {
    assert Pow2(8) == 0x100;
    assert Pow2(16) == 0x1_0000;
    assert Pow2(24) == 0x100_0000;
    [ToByte(ShiftRight(d, 24)), ToByte(ShiftRight(d, 16)), ToByte(ShiftRight(d, 8)), ToByte(d)]
  }

  /** Reassembles four octets, most significant first, into a 32-bit value. */
  function Join4(o: seq<Byte>): (d: Uint32)
    requires |o| == 4
  {
    (((o[0] as int) * 0x100 + o[1]) * 0x100 + o[2]) * 0x100 + o[3]
  }

  /** Dividing by 2^8 twice is dividing by 2^16, and so on up the octets. */
  lemma DivideInSteps(x: int)
    requires x >= 0
    ensures x / 0x1_0000 == (x / 0x100) / 0x100
    ensures x / 0x100_0000 == (x / 0x1_0000) / 0x100
  {
    var q1 := x / 0x100;
    var q2 := q1 / 0x100;
    var q3 := q2 / 0x100;
    assert x == q2 * 0x1_0000 + (q1 % 0x100) * 0x100 + x % 0x100;
    assert x == q3 * 0x100_0000 + (q2 % 0x100) * 0x1_0000 + (q1 % 0x100) * 0x100 + x % 0x100;
  }

  /** The split loses nothing: reassembling the octets gives back the address. */
  lemma SplitJoin(d: Uint32)
    ensures Join4(Split4(d)) == d
  {
    var o := Split4(d);
    DivideInSteps(d);
    var q1 := d / 0x100;
    var q2 := q1 / 0x100;
    assert d == q1 * 0x100 + o[3];
    assert q1 == q2 * 0x100 + o[2];
    assert q2 == (o[0] as int) * 0x100 + o[1];
  }

  /** Every choice of four octets is the split of exactly one address. */
  lemma JoinSplit(o: seq<Byte>)
    requires |o| == 4
    ensures Split4(Join4(o)) == o
  {
    var d := Join4(o);
    var a, b, c, e := o[0] as int, o[1] as int, o[2] as int, o[3] as int;
    var q2 := a * 0x100 + b;
    var q1 := q2 * 0x100 + c;
    assert d == q1 * 0x100 + e;
    assert d / 0x100 == q1 && d % 0x100 == e;
    assert q1 / 0x100 == q2 && q1 % 0x100 == c;
    assert q2 / 0x100 == a && q2 % 0x100 == b;
    DivideInSteps(d);
  }

  /** `net.IP.String()` for an IPv4 address: the four octets in decimal, dot-separated. */
  function Dotted(d: Uint32): string {
    var o := Split4(d);
    Join([Decimal(o[0]), Decimal(o[1]), Decimal(o[2]), Decimal(o[3])], '.')
  }

  /** Reads a dotted-decimal IPv4 address; the partner of `Dotted`. */
  function ParseDotted(s: string): Option<Uint32> {
    var ps := Split(s, '.');
    if |ps| != 4 then None
    else
      var a := ParseDecimal(ps[0]);
      var b := ParseDecimal(ps[1]);
      var c := ParseDecimal(ps[2]);
      var e := ParseDecimal(ps[3]);
      if a.None? || b.None? || c.None? || e.None? then None
      else if a.value >= 0x100 || b.value >= 0x100 || c.value >= 0x100 || e.value >= 0x100 then None
      else Some(Join4([a.value, b.value, c.value, e.value]))
  }

  /** The printed form identifies the address: reading it back gives `destIP`. */
  lemma {:induction false} DottedRoundTrip(d: Uint32)
    ensures ParseDotted(Dotted(d)) == Some(d)
  {
    var o := Split4(d);
    var ps := [Decimal(o[0]), Decimal(o[1]), Decimal(o[2]), Decimal(o[3])];
    forall i | 0 <= i < 4
      ensures '.' !in ps[i]
    {
      assert forall k :: 0 <= k < |ps[i]| ==> ps[i][k] != '.';
    }
    SplitOfJoin(ps, '.');
    DecimalRoundTrip(o[0]);
    DecimalRoundTrip(o[1]);
    DecimalRoundTrip(o[2]);
    DecimalRoundTrip(o[3]);
    SplitJoin(d);
  }

  /** The destination bytes 0A 00 00 01 print as 10.0.0.1. */
  lemma TenDotZeroDotZeroDotOne(d: Uint32)
    requires d == 0x0A00_0001
    ensures Split4(d) == [10, 0, 0, 1]
    ensures Dotted(d) == "10.0.0.1"
  {
    var o := Split4(d);
    assert d / 0x100 == 0x0A_0000 && d / 0x1_0000 == 0x0A00;
    assert o[0] == 10 && o[1] == 0 && o[2] == 0 && o[3] == 1;
    DecimalsOfTenZeroOne();
    JoinTenZeroZeroOne();
  }

  lemma DecimalsOfTenZeroOne()
    ensures Decimal(10) == "10" && Decimal(0) == "0" && Decimal(1) == "1"
  {
    assert Decimal(10) == Decimal(1) + [DigitChar(0)];
  }

  lemma JoinTenZeroZeroOne()
    ensures Join(["10", "0", "0", "1"], '.') == "10.0.0.1"
  {
    var ps := ["10", "0", "0", "1"];
    assert Join(ps[3..], '.') == "1";
    assert Join(ps[2..], '.') == "0.1";
    assert Join(ps[1..], '.') == "0.0.1";
  }
}

=== FILE: reconciler.dfy ===
/** The reconciliation loop of unix/init.go (`addPIDToCgroup`): for each PID of each
    delivered batch it writes the PID into the cgroup unless the PID is already in its
    cache, and caches the PID only when the write succeeded. The outcome of each write
    is an input. The channel, the mutex and cancellation are not modelled: a run is a
    finite sequence of deliveries handled one after another. */
module Reconciler {
  import opened Text
  import opened Cgroup
  import opened Locator

  /** One call of `writePIDToCgroup` and what it returned. */
  datatype Attempt = Attempt(pid: string, outcome: WriteOutcome)

  /** A batch as the loop receives it, together with the outcome the write of its
      i-th PID would have if that write is made. */
  datatype Delivery = Delivery(info: PidsInfo, outcomes: seq<WriteOutcome>)

  predicate WellFormed(d: Delivery) {
    |d.outcomes| == |d.info.pids|
  }

  /** The loop's state after some work, and the writes that work made. */
  datatype Step = Step(cache: set<string>, attempts: seq<Attempt>)

  /** The PIDs of the attempts that succeeded. */
  function Succeeded(attempts: seq<Attempt>): set<string> {
    set k | 0 <= k < |attempts| && attempts[k].outcome.Written? :: attempts[k].pid
  }

  /** The PIDs whose write would succeed at some position of the batch. */
  function Writable(pids: seq<string>, outcomes: seq<WriteOutcome>): set<string>
    requires |outcomes| == |pids|
  {
    set i | 0 <= i < |pids| && outcomes[i].Written? :: pids[i]
  }

  /** No PID is written again after a write of it succeeded. */
  predicate WrittenOnce(attempts: seq<Attempt>) {
    forall k, l :: 0 <= k < l < |attempts| && attempts[k].outcome.Written? ==> attempts[l].pid != attempts[k].pid
  }

  lemma WritableCons(pids: seq<string>, outcomes: seq<WriteOutcome>)
    requires |outcomes| == |pids| > 0
    ensures Writable(pids, outcomes)
      == (if outcomes[0].Written? then {pids[0]} else {}) + Writable(pids[1..], outcomes[1..])
  {
    var tail := Writable(pids[1..], outcomes[1..]);
    forall x | x in tail ensures x in Writable(pids, outcomes) {
      var i :| 0 <= i < |pids| - 1 && outcomes[1..][i].Written? && pids[1..][i] == x;
      assert pids[i + 1] == x && outcomes[i + 1].Written?;
    }
    forall x | x in Writable(pids, outcomes) && x != pids[0] ensures x in tail {
      var i :| 0 <= i < |pids| && outcomes[i].Written? && pids[i] == x;
      assert i > 0 && pids[1..][i - 1] == x && outcomes[1..][i - 1].Written?;
    }
    forall x | x in Writable(pids, outcomes) && x == pids[0] && !outcomes[0].Written?
      ensures x in tail
    {
      var i :| 0 <= i < |pids| && outcomes[i].Written? && pids[i] == x;
      assert i > 0 && pids[1..][i - 1] == x && outcomes[1..][i - 1].Written?;
    }
  }

  lemma SucceededCons(a: Attempt, rest: seq<Attempt>)
    ensures Succeeded([a] + rest) == (if a.outcome.Written? then {a.pid} else {}) + Succeeded(rest)
  {
    var all := [a] + rest;
    assert all[0] == a;
    forall x | x in Succeeded(rest) ensures x in Succeeded(all) {
      var k :| 0 <= k < |rest| && rest[k].outcome.Written? && rest[k].pid == x;
      assert all[k + 1] == rest[k];
    }
    forall x | x in Succeeded(all) && (x != a.pid || !a.outcome.Written?) ensures x in Succeeded(rest) {
      var k :| 0 <= k < |all| && all[k].outcome.Written? && all[k].pid == x;
      assert k > 0 && all[k] == rest[k - 1];
    }
  }

  /** The loop body for one delivered batch, starting from `cache`: each PID of the
      batch, in order, is written if it is not in the cache, and cached if the write
      succeeded. */
  function ReconcileBatch(cache: set<string>, pids: seq<string>, outcomes: seq<WriteOutcome>): (r: Step)
    requires |outcomes| == |pids|
    decreases |pids|
    ensures cache <= r.cache
    ensures |r.attempts| <= |pids|
  {
    if |pids| == 0 then Step(cache, [])
    else if pids[0] in cache then ReconcileBatch(cache, pids[1..], outcomes[1..])
    else
      var cache' := if outcomes[0].Written? then cache + {pids[0]} else cache;
      var rest := ReconcileBatch(cache', pids[1..], outcomes[1..]);
      Step(rest.cache, [Attempt(pids[0], outcomes[0])] + rest.attempts)
  }

  /** After a batch the cache holds exactly the PIDs it held before and those whose
      write succeeds at some position of the batch: a PID absent from the cache is
      written at its first occurrence, rewritten at each later occurrence while its
      writes keep failing, and never again once one succeeds. */
  lemma {:induction false} BatchCache(cache: set<string>, pids: seq<string>, outcomes: seq<WriteOutcome>)
    requires |outcomes| == |pids|
    decreases |pids|
    ensures ReconcileBatch(cache, pids, outcomes).cache == cache + Writable(pids, outcomes)
  {
    if |pids| > 0 {
      WritableCons(pids, outcomes);
      var cache' := if pids[0] !in cache && outcomes[0].Written? then cache + {pids[0]} else cache;
      BatchCache(cache', pids[1..], outcomes[1..]);
    }
  }

  /** Some attempt wrote `pid`. */
  predicate Attempted(attempts: seq<Attempt>, pid: string) {
    exists k :: 0 <= k < |attempts| && attempts[k].pid == pid
  }

  /** Every attempt wrote a PID of `pids` that was absent from `cache`. */
  predicate OnlyAbsent(attempts: seq<Attempt>, cache: set<string>, pids: seq<string>) {
    forall k :: 0 <= k < |attempts| ==> attempts[k].pid !in cache && attempts[k].pid in pids
  }

  /** Every PID of `pids` absent from `cache` was written. */
  predicate EveryAbsent(attempts: seq<Attempt>, cache: set<string>, pids: seq<string>) {
    forall i :: 0 <= i < |pids| && pids[i] !in cache ==> Attempted(attempts, pids[i])
  }

  /** Only PIDs of the batch that were absent from the cache are written. */
  lemma {:induction false} BatchWritesOnlyAbsent(cache: set<string>, pids: seq<string>, outcomes: seq<WriteOutcome>)
    requires |outcomes| == |pids|
    decreases |pids|
    ensures OnlyAbsent(ReconcileBatch(cache, pids, outcomes).attempts, cache, pids)
  {
    if |pids| > 0 {
      var cache' := if pids[0] !in cache && outcomes[0].Written? then cache + {pids[0]} else cache;
      BatchWritesOnlyAbsent(cache', pids[1..], outcomes[1..]);
      var rest := ReconcileBatch(cache', pids[1..], outcomes[1..]).attempts;
      var r := ReconcileBatch(cache, pids, outcomes).attempts;
      if pids[0] in cache {
        assert r == rest;
      } else {
        assert r == [Attempt(pids[0], outcomes[0])] + rest;
      }
      forall k | 0 <= k < |r| ensures r[k].pid !in cache && r[k].pid in pids {
        if pids[0] !in cache && k == 0 {
        } else {
          var k' := if pids[0] in cache then k else k - 1;
          assert r[k] == rest[k'];
          var i :| 0 <= i < |pids[1..]| && pids[1..][i] == rest[k'].pid;
          assert pids[i + 1] == r[k].pid;
        }
      }
    }
  }

  /** The PIDs that entered the cache are exactly the PIDs of the successful writes. */
  lemma {:induction false} BatchCachesSuccesses(cache: set<string>, pids: seq<string>, outcomes: seq<WriteOutcome>)
    requires |outcomes| == |pids|
    decreases |pids|
    ensures var r := ReconcileBatch(cache, pids, outcomes);
      r.cache - cache == Succeeded(r.attempts)
  {
    if |pids| > 0 {
      var cache' := if pids[0] !in cache && outcomes[0].Written? then cache + {pids[0]} else cache;
      BatchCachesSuccesses(cache', pids[1..], outcomes[1..]);
      var rest := ReconcileBatch(cache', pids[1..], outcomes[1..]);
      if pids[0] !in cache {
        SucceededCons(Attempt(pids[0], outcomes[0]), rest.attempts);
      }
    }
  }

  /** Within a batch, no PID is written again after a successful write. */
  lemma {:induction false} BatchWrittenOnce(cache: set<string>, pids: seq<string>, outcomes: seq<WriteOutcome>)
    requires |outcomes| == |pids|
    decreases |pids|
    ensures WrittenOnce(ReconcileBatch(cache, pids, outcomes).attempts)
  {
    if |pids| > 0 && pids[0] !in cache {
      var cache' := if outcomes[0].Written? then cache + {pids[0]} else cache;
      BatchWrittenOnce(cache', pids[1..], outcomes[1..]);
      BatchWritesOnlyAbsent(cache', pids[1..], outcomes[1..]);
      var rest := ReconcileBatch(cache', pids[1..], outcomes[1..]).attempts;
      var r := ReconcileBatch(cache, pids, outcomes).attempts;
      assert r == [Attempt(pids[0], outcomes[0])] + rest;
      forall k, l | 0 <= k < l < |r| && r[k].outcome.Written? ensures r[l].pid != r[k].pid {
        assert r[l] == rest[l - 1];
        if k > 0 {
          assert r[k] == rest[k - 1];
        }
      }
    } else if |pids| > 0 {
      BatchWrittenOnce(cache, pids[1..], outcomes[1..]);
    }
  }

  /** Every PID of the batch that is absent from the cache is written at least once. */
  lemma {:induction false} BatchWritesEveryAbsent(cache: set<string>, pids: seq<string>, outcomes: seq<WriteOutcome>)
    requires |outcomes| == |pids|
    decreases |pids|
    ensures EveryAbsent(ReconcileBatch(cache, pids, outcomes).attempts, cache, pids)
  {
    if |pids| > 0 {
      var cache' := if pids[0] !in cache && outcomes[0].Written? then cache + {pids[0]} else cache;
      BatchWritesEveryAbsent(cache', pids[1..], outcomes[1..]);
      var rest := ReconcileBatch(cache', pids[1..], outcomes[1..]).attempts;
      var r := ReconcileBatch(cache, pids, outcomes).attempts;
      forall i | 0 <= i < |pids| && pids[i] !in cache ensures Attempted(r, pids[i]) {
        if pids[i] == pids[0] {
          assert r[0].pid == pids[0];
        } else {
          assert pids[1..][i - 1] == pids[i] && pids[i] !in cache';
          assert Attempted(rest, pids[i]);
          var k :| 0 <= k < |rest| && rest[k].pid == pids[i];
          if pids[0] in cache {
            assert r == rest;
          } else {
            assert r == [Attempt(pids[0], outcomes[0])] + rest;
            assert r[k + 1] == rest[k];
          }
        }
      }
    }
  }

  /** The loop over a whole run of deliveries, one after another. */
  function Reconcile(cache: set<string>, deliveries: seq<Delivery>): (r: Step)
    requires forall j :: 0 <= j < |deliveries| ==> WellFormed(deliveries[j])
    decreases |deliveries|
    ensures cache <= r.cache
  {
    if |deliveries| == 0 then Step(cache, [])
    else
      var d := deliveries[0];
      assert WellFormed(d);
      var first := ReconcileBatch(cache, d.info.pids, d.outcomes);
      var rest := Reconcile(first.cache, deliveries[1..]);
      Step(rest.cache, first.attempts + rest.attempts)
  }

  lemma AppendWrittenOnce(xs: seq<Attempt>, ys: seq<Attempt>)
    requires WrittenOnce(xs) && WrittenOnce(ys)
    requires forall l :: 0 <= l < |ys| ==> ys[l].pid !in Succeeded(xs)
    ensures WrittenOnce(xs + ys)
  {
    var all := xs + ys;
    forall k, l | 0 <= k < l < |all| && all[k].outcome.Written? ensures all[l].pid != all[k].pid {
      if k < |xs| && l >= |xs| {
        assert all[k].pid in Succeeded(xs);
        assert all[l] == ys[l - |xs|];
      } else if k >= |xs| {
        assert all[k] == ys[k - |xs|] && all[l] == ys[l - |xs|];
      }
    }
  }

  lemma SucceededAppend(xs: seq<Attempt>, ys: seq<Attempt>)
    ensures Succeeded(xs + ys) == Succeeded(xs) + Succeeded(ys)
  {
    var all := xs + ys;
    forall x | x in Succeeded(ys) ensures x in Succeeded(all) {
      var k :| 0 <= k < |ys| && ys[k].outcome.Written? && ys[k].pid == x;
      assert all[k + |xs|] == ys[k];
    }
    forall x | x in Succeeded(xs) ensures x in Succeeded(all) {
      var k :| 0 <= k < |xs| && xs[k].outcome.Written? && xs[k].pid == x;
      assert all[k] == xs[k];
    }
    forall x | x in Succeeded(all) ensures x in Succeeded(xs) + Succeeded(ys) {
      var k :| 0 <= k < |all| && all[k].outcome.Written? && all[k].pid == x;
      if k < |xs| { assert all[k] == xs[k]; } else { assert all[k] == ys[k - |xs|]; }
    }
  }

  /** Over a whole run, every write is of a PID that was not cached when the run began,
      the PIDs cached during the run are exactly those of the successful writes, and
      no PID is written again once a write of it succeeded, whether it is reported
      again in the same batch or in a later one. So each distinct PID is successfully
      written at most once. */
  lemma {:induction false} RunWritesEachPidOnce(cache: set<string>, deliveries: seq<Delivery>)
    requires forall j :: 0 <= j < |deliveries| ==> WellFormed(deliveries[j])
    decreases |deliveries|
    ensures var r := Reconcile(cache, deliveries);
      && (forall k :: 0 <= k < |r.attempts| ==> r.attempts[k].pid !in cache)
      && r.cache - cache == Succeeded(r.attempts)
      && WrittenOnce(r.attempts)
  {
    if |deliveries| > 0 {
      var d := deliveries[0];
      assert WellFormed(d);
      var first := ReconcileBatch(cache, d.info.pids, d.outcomes);
      BatchWritesOnlyAbsent(cache, d.info.pids, d.outcomes);
      BatchCachesSuccesses(cache, d.info.pids, d.outcomes);
      BatchWrittenOnce(cache, d.info.pids, d.outcomes);
      assert forall j :: 0 <= j < |deliveries| - 1 ==> deliveries[1..][j] == deliveries[j + 1];
      RunWritesEachPidOnce(first.cache, deliveries[1..]);
      var rest := Reconcile(first.cache, deliveries[1..]);
      var r := Reconcile(cache, deliveries);
      assert r.attempts == first.attempts + rest.attempts;
      AppendWrittenOnce(first.attempts, rest.attempts);
      SucceededAppend(first.attempts, rest.attempts);
      forall k | 0 <= k < |r.attempts| ensures r.attempts[k].pid !in cache {
        if k >= |first.attempts| {
          assert r.attempts[k] == rest.attempts[k - |first.attempts|];
        }
      }
    }
  }

  /** A PID whose every write in one batch failed stays uncached, so when a later batch
      reports it again it is written again. */
  lemma FailedWriteIsRetried(cache: set<string>, d1: Delivery, d2: Delivery, pid: string)
    requires WellFormed(d1) && WellFormed(d2)
    requires pid !in cache && pid in d2.info.pids
    requires forall i :: 0 <= i < |d1.info.pids| && d1.info.pids[i] == pid ==> d1.outcomes[i].WriteFailed?
    ensures var first := ReconcileBatch(cache, d1.info.pids, d1.outcomes);
      pid !in first.cache && Attempted(ReconcileBatch(first.cache, d2.info.pids, d2.outcomes).attempts, pid)
  {
    BatchCache(cache, d1.info.pids, d1.outcomes);
    var first := ReconcileBatch(cache, d1.info.pids, d1.outcomes);
    BatchWritesEveryAbsent(first.cache, d2.info.pids, d2.outcomes);
    var i :| 0 <= i < |d2.info.pids| && d2.info.pids[i] == pid;
  }

  /** The PIDs of the successful writes, in the order they were made. */
  function WrittenPids(attempts: seq<Attempt>): (pids: seq<string>)
    ensures forall i :: 0 <= i < |pids| ==> pids[i] in Succeeded(attempts)
  {
    if |attempts| == 0 then []
    else
      SucceededCons(attempts[0], attempts[1..]);
      assert [attempts[0]] + attempts[1..] == attempts;
      (if attempts[0].outcome.Written? then [attempts[0].pid] else []) + WrittenPids(attempts[1..])
  }

  /** The bytes the successful writes send to the cgroup's `cgroup.procs`, in write
      order. (What reading that kernel file back shows, the group's current members, is
      not modelled.) */
  function BytesWritten(attempts: seq<Attempt>): string {
    if |attempts| == 0 then []
    else (if attempts[0].outcome.Written? then Record(attempts[0].pid) else []) + BytesWritten(attempts[1..])
  }

  /** The successful writes send one line each, in order. */
  lemma {:induction false} BytesWrittenAreLines(attempts: seq<Attempt>)
    ensures BytesWritten(attempts) == Lines(WrittenPids(attempts))
  {
    if |attempts| > 0 {
      var a := attempts[0];
      var tail := attempts[1..];
      BytesWrittenAreLines(tail);
      if a.outcome.Written? {
        assert WrittenPids(attempts) == [a.pid] + WrittenPids(tail);
        assert ([a.pid] + WrittenPids(tail))[1..] == WrittenPids(tail);
      } else {
        assert WrittenPids(attempts) == WrittenPids(tail);
      }
    }
  }

  /** If no PID was written twice, the written PIDs are pairwise distinct. */
  lemma {:induction false} WrittenPidsDistinct(attempts: seq<Attempt>)
    requires WrittenOnce(attempts)
    ensures forall i, j :: 0 <= i < j < |WrittenPids(attempts)| ==> WrittenPids(attempts)[i] != WrittenPids(attempts)[j]
  {
    if |attempts| > 0 {
      var a := attempts[0];
      var tail := attempts[1..];
      assert WrittenOnce(tail) by {
        assert forall k :: 0 <= k < |tail| ==> tail[k] == attempts[k + 1];
      }
      WrittenPidsDistinct(tail);
      var ws := WrittenPids(attempts);
      if a.outcome.Written? {
        assert ws == [a.pid] + WrittenPids(tail);
        forall j | 0 < j < |ws| ensures ws[j] != a.pid {
          var x := WrittenPids(tail)[j - 1];
          assert x in Succeeded(tail);
          var l :| 0 <= l < |tail| && tail[l].outcome.Written? && tail[l].pid == x;
          assert attempts[l + 1] == tail[l];
        }
      } else {
        assert ws == WrittenPids(tail);
      }
    }
  }

  /** When the written PIDs are white-space free (as pgrep's fields are), the bytes
      sent to `cgroup.procs`, read as white-space separated PIDs, are exactly the
      successfully written PIDs in order, and if no PID was written twice, none occurs
      twice. */
  lemma BytesWrittenListWrittenPids(attempts: seq<Attempt>)
    requires forall k :: 0 <= k < |attempts| ==> IsWord(attempts[k].pid)
    ensures Fields(BytesWritten(attempts)) == WrittenPids(attempts)
    ensures WrittenOnce(attempts) ==>
      forall i, j :: 0 <= i < j < |WrittenPids(attempts)| ==> WrittenPids(attempts)[i] != WrittenPids(attempts)[j]
  {
    var ws := WrittenPids(attempts);
    forall i | 0 <= i < |ws| ensures IsWord(ws[i]) {
      assert ws[i] in Succeeded(attempts);
    }
    BytesWrittenAreLines(attempts);
    FieldsOfLines(ws);
    if WrittenOnce(attempts) {
      WrittenPidsDistinct(attempts);
    }
  }

  /** Two ticks of the discord locator: PIDs 100 and 101, then 100, 101 and the newly
      spawned child 102, every write succeeding. 100 and 101 are written once, in the
      first tick; only 102 is written in the second. */
  lemma NewChildIsTheOnlyNewWrite()
    ensures var ok := Written;
      var r := Reconcile({}, [Delivery(PidsInfo("discord", ["100", "101"]), [ok, ok]),
                              Delivery(PidsInfo("discord", ["100", "101", "102"]), [ok, ok, ok])]);
      r.attempts == [Attempt("100", ok), Attempt("101", ok), Attempt("102", ok)]
      && r.cache == {"100", "101", "102"}
  {
    var ok := Written;
    var tick1 := ReconcileBatch({}, ["100", "101"], [ok, ok]);
    assert ReconcileBatch({"100", "101"}, [], []) == Step({"100", "101"}, []);
    assert ReconcileBatch({"100"}, ["101"], [ok]) == Step({"100", "101"}, [Attempt("101", ok)]);
    assert tick1 == Step({"100", "101"}, [Attempt("100", ok), Attempt("101", ok)]);
    var c := {"100", "101"};
    assert "102" !in c;
    assert ReconcileBatch(c, ["102"], [ok]) == Step(c + {"102"}, [Attempt("102", ok)]);
    assert ["100", "101", "102"][1..] == ["101", "102"];
    assert ["101", "102"][1..] == ["102"];
    assert ReconcileBatch(c, ["101", "102"], [ok, ok]) == ReconcileBatch(c, ["102"], [ok]);
    assert ReconcileBatch(c, ["100", "101", "102"], [ok, ok, ok]) == ReconcileBatch(c, ["101", "102"], [ok, ok]);
    var d1 := Delivery(PidsInfo("discord", ["100", "101"]), [ok, ok]);
    var d2 := Delivery(PidsInfo("discord", ["100", "101", "102"]), [ok, ok, ok]);
    assert Reconcile(c + {"102"}, []) == Step(c + {"102"}, []);
    assert [d2][1..] == [];
    assert Reconcile(c, [d2]) == Step(c + {"102"}, [Attempt("102", ok)]);
    assert [d1, d2][1..] == [d2];
  }
}

=== FILE: results.dfy ===
/** Failure-carrying values shared by the modules of this model. */
module Results {

  /** A value that may be missing. */
  datatype Option<T> = None | Some(value: T)

  /** What a Go function whose only result is an `error` returned: `nil`, or an error. */
  datatype ErrValue<E> = Nil | Err(error: E)
}

=== FILE: text.dfy ===
/** The string operations of Go's standard library that the control plane relies on:
    `strings.Fields` (splitting pgrep output), `strings.Split` on a one-character
    separator (turning an iptables rule into an argument list), and decimal rendering
    of numbers (ports, octets). Strings are sequences of code points. */
module Text {
  import opened Results

  /** Go's `unicode.IsSpace`: the characters `strings.Fields` separates on. */
  predicate IsSpace(c: char) {
    var n := c as int;
    n == 0x20 || 0x09 <= n <= 0x0D || n == 0x85 || n == 0xA0 || n == 0x1680
    || 0x2000 <= n <= 0x200A || n == 0x2028 || n == 0x2029 || n == 0x202F
    || n == 0x205F || n == 0x3000
  }

  /** A field as `strings.Fields` produces it: non-empty and free of white space. */
  predicate IsWord(w: string) {
    |w| > 0 && forall i :: 0 <= i < |w| ==> !IsSpace(w[i])
  }

  predicate AllSpace(s: string) {
    forall i :: 0 <= i < |s| ==> IsSpace(s[i])
  }

  /** The characters of `s` that are not white space, in order. */
  function NonSpace(s: string): (t: string)
    ensures |t| <= |s|
    ensures forall i :: 0 <= i < |t| ==> !IsSpace(t[i])
  {
    if |s| == 0 then []
    else (if IsSpace(s[0]) then [] else [s[0]]) + NonSpace(s[1..])
  }

  /** The strings of `ws` written one after another. */
  function Concat(ws: seq<string>): string {
    if |ws| == 0 then [] else ws[0] + Concat(ws[1..])
  }

  /** Length of the run of non-space characters at the front of `s`. */
  function WordLength(s: string): (n: nat)
    ensures n <= |s|
    ensures forall i :: 0 <= i < n ==> !IsSpace(s[i])
    ensures n < |s| ==> IsSpace(s[n])
  {
    if |s| == 0 || IsSpace(s[0]) then 0 else 1 + WordLength(s[1..])
  }

  /** Go's `strings.Fields`: the maximal runs of non-space characters of `s`. */
  function Fields(s: string): (fs: seq<string>)
    decreases |s|
    ensures forall i :: 0 <= i < |fs| ==> IsWord(fs[i])
    ensures |fs| == 0 <==> AllSpace(s)
  {
    if |s| == 0 then []
    else if IsSpace(s[0]) then Fields(s[1..])
    else
      var n := WordLength(s);
      [s[..n]] + Fields(s[n..])
  }

  /** Splitting a word off the front of a string keeps its non-space characters. */
  lemma {:induction false} NonSpaceOfWordPrefix(s: string, n: nat)
    requires n <= |s|
    requires forall i :: 0 <= i < n ==> !IsSpace(s[i])
    ensures NonSpace(s) == s[..n] + NonSpace(s[n..])
  {
    if n > 0 {
      NonSpaceOfWordPrefix(s[1..], n - 1);
      assert s[1..][..n-1] == s[1..n];
      assert s[1..][n-1..] == s[n..];
      assert s[..n] == [s[0]] + s[1..n];
    }
  }

  /** `strings.Fields` loses only white space: its fields, written back to back, are
      exactly the non-space characters of the input. */
  lemma {:induction false} FieldsKeepNonSpace(s: string)
    ensures Concat(Fields(s)) == NonSpace(s)
    decreases |s|
  {
    if |s| == 0 {
    } else if IsSpace(s[0]) {
      FieldsKeepNonSpace(s[1..]);
    } else {
      var n := WordLength(s);
      FieldsKeepNonSpace(s[n..]);
      NonSpaceOfWordPrefix(s, n);
      assert Fields(s) == [s[..n]] + Fields(s[n..]);
      assert ([s[..n]] + Fields(s[n..]))[1..] == Fields(s[n..]);
    }
  }

  lemma {:induction false} WordLengthOfWord(w: string, t: string)
    requires forall i :: 0 <= i < |w| ==> !IsSpace(w[i])
    requires |t| == 0 || IsSpace(t[0])
    ensures WordLength(w + t) == |w|
  {
    if |w| > 0 {
      assert (w + t)[1..] == w[1..] + t;
      WordLengthOfWord(w[1..], t);
    }
  }

  /** A word followed by one separator contributes exactly one field. */
  lemma FieldsCons(w: string, c: char, rest: string)
    requires IsWord(w) && IsSpace(c)
    ensures Fields(w + [c] + rest) == [w] + Fields(rest)
  {
    var s := w + [c] + rest;
    WordLengthOfWord(w, [c] + rest);
    assert s == w + ([c] + rest);
    assert s[..|w|] == w;
    assert s[|w|..] == [c] + rest;
    assert ([c] + rest)[1..] == rest;
  }

  /** A word on its own is a single field. */
  lemma FieldsOfWord(w: string)
    requires IsWord(w)
    ensures Fields(w) == [w]
  {
    WordLengthOfWord(w, []);
    assert w + [] == w;
    assert w[..|w|] == w;
    assert w[|w|..] == [];
  }

  /** A word followed by white space (or by nothing) is one field of its own. */
  lemma {:induction false} FieldsOfWordThen(w: string, t: string)
    requires IsWord(w) && (|t| == 0 || IsSpace(t[0]))
    ensures Fields(w + t) == [w] + Fields(t)
  {
    WordLengthOfWord(w, t);
    assert (w + t)[..|w|] == w;
    assert (w + t)[|w|..] == t;
  }

  /** Leading white space contributes no field. */
  lemma {:induction false} FieldsSkipSpace(sp: string, t: string)
    requires AllSpace(sp)
    ensures Fields(sp + t) == Fields(t)
  {
    if |sp| == 0 {
      assert sp + t == t;
    } else {
      assert (sp + t)[0] == sp[0];
      assert (sp + t)[1..] == sp[1..] + t;
      FieldsSkipSpace(sp[1..], t);
    }
  }

  /** The words of `ws` laid out between the gaps `gaps`: `gaps[0] + ws[0] + gaps[1] +
      ... + ws[n-1] + gaps[n]`. */
  function Layout(ws: seq<string>, gaps: seq<string>): string
    requires |gaps| == |ws| + 1
  {
    if |ws| == 0 then gaps[0] else gaps[0] + ws[0] + Layout(ws[1..], gaps[1..])
  }

  /** Gaps that can stand between the fields of a string: white space only, and
      non-empty between two words (the outer two may be empty). */
  predicate Separating(gaps: seq<string>) {
    && (forall k :: 0 <= k < |gaps| ==> AllSpace(gaps[k]))
    && (forall k :: 0 < k < |gaps| - 1 ==> |gaps[k]| > 0)
  }

  /** `strings.Fields` takes the maximal runs of non-space characters: whatever white
      space separates the words, and however much of it, they are read back exactly. */
  lemma {:induction false} FieldsOfLayout(ws: seq<string>, gaps: seq<string>)
    requires |gaps| == |ws| + 1 && Separating(gaps)
    requires forall i :: 0 <= i < |ws| ==> IsWord(ws[i])
    ensures Fields(Layout(ws, gaps)) == ws
  {
    if |ws| == 0 {
      FieldsSkipSpace(gaps[0], []);
      assert gaps[0] + [] == gaps[0];
    } else {
      var w, rest := ws[0], Layout(ws[1..], gaps[1..]);
      SeparatingTail(gaps);
      FieldsOfLayout(ws[1..], gaps[1..]);
      LayoutStartsWithGap(ws[1..], gaps[1..]);
      FieldsOfWordThen(w, rest);
      assert Layout(ws, gaps) == gaps[0] + (w + rest);
      FieldsSkipSpace(gaps[0], w + rest);
      assert [w] + ws[1..] == ws;
    }
  }

  lemma {:induction false} SeparatingTail(gaps: seq<string>)
    requires |gaps| > 0 && Separating(gaps)
    ensures Separating(gaps[1..])
  {
    assert forall k :: 0 <= k < |gaps| - 1 ==> gaps[1..][k] == gaps[k + 1];
  }

  /** A layout after a word starts with white space, or is empty. */
  lemma {:induction false} LayoutStartsWithGap(ws: seq<string>, gaps: seq<string>)
    requires |gaps| == |ws| + 1 && AllSpace(gaps[0])
    requires |ws| > 0 ==> |gaps[0]| > 0
    ensures var l := Layout(ws, gaps); |l| == 0 || IsSpace(l[0])
  {
    if |ws| > 0 {
      assert Layout(ws, gaps) == gaps[0] + (ws[0] + Layout(ws[1..], gaps[1..]));
    } else {
      assert Layout(ws, gaps) == gaps[0];
    }
  }

  /** White space in front of a layout can be counted into its first gap. */
  lemma {:induction false} LayoutWiderGap(ws: seq<string>, gaps: seq<string>, sp: string)
    requires |gaps| == |ws| + 1
    ensures Layout(ws, [sp + gaps[0]] + gaps[1..]) == sp + Layout(ws, gaps)
  {
    var wider := [sp + gaps[0]] + gaps[1..];
    assert wider[0] == sp + gaps[0] && wider[1..] == gaps[1..];
    if |ws| > 0 {
      assert Layout(ws, wider) == (sp + gaps[0]) + ws[0] + Layout(ws[1..], gaps[1..]);
    }
  }

  lemma {:induction false} GapsOfSpace(gaps: seq<string>, c: char)
    requires |gaps| > 0 && Separating(gaps) && IsSpace(c)
    ensures var wider := [[c] + gaps[0]] + gaps[1..];
      Separating(wider) && |wider[0]| > 0
  {
    var wider := [[c] + gaps[0]] + gaps[1..];
    assert forall k :: 0 < k < |wider| ==> wider[k] == gaps[k];
  }

  lemma {:induction false} GapsOfWord(w: string, gaps: seq<string>, ws: seq<string>)
    requires |gaps| == |ws| + 1 && Separating(gaps)
    requires |ws| > 0 ==> |gaps[0]| > 0
    ensures var more := [[]] + gaps;
      Separating(more) && Layout([w] + ws, more) == w + Layout(ws, gaps)
  {
    var more: seq<string> := [[]] + gaps;
    assert forall k :: 0 < k < |more| ==> more[k] == gaps[k - 1];
    assert ([w] + ws)[1..] == ws && more[1..] == gaps;
  }

  /** The white space between the fields of `s`, so that every string is its fields
      laid out between separating gaps. */
  function Gaps(s: string): (gaps: seq<string>)
    decreases |s|
    ensures |gaps| == |Fields(s)| + 1 && Separating(gaps)
    ensures |s| > 0 && IsSpace(s[0]) ==> |gaps[0]| > 0
    ensures Layout(Fields(s), gaps) == s
  {
    if |s| == 0 then [[]]
    else if IsSpace(s[0]) then
      var rest := Gaps(s[1..]);
      GapsSpaceCase(s, rest);
      [[s[0]] + rest[0]] + rest[1..]
    else
      var rest := Gaps(s[WordLength(s)..]);
      GapsWordCase(s, rest);
      [[]] + rest
  }

  lemma {:induction false} GapsSpaceCase(s: string, rest: seq<string>)
    requires |s| > 0 && IsSpace(s[0])
    requires |rest| == |Fields(s[1..])| + 1 && Separating(rest) && Layout(Fields(s[1..]), rest) == s[1..]
    ensures var gaps := [[s[0]] + rest[0]] + rest[1..];
      |gaps| == |Fields(s)| + 1 && Separating(gaps) && |gaps[0]| > 0 && Layout(Fields(s), gaps) == s
  {
    assert Fields(s) == Fields(s[1..]);
    GapsOfSpace(rest, s[0]);
    LayoutWiderGap(Fields(s[1..]), rest, [s[0]]);
    assert [s[0]] + s[1..] == s;
  }

  lemma {:induction false} GapsWordCase(s: string, rest: seq<string>)
    requires |s| > 0 && !IsSpace(s[0])
    requires var tail := s[WordLength(s)..];
      && |rest| == |Fields(tail)| + 1 && Separating(rest) && Layout(Fields(tail), rest) == tail
      && (|tail| > 0 ==> |rest[0]| > 0)
    ensures var gaps := [[]] + rest;
      |gaps| == |Fields(s)| + 1 && Separating(gaps) && Layout(Fields(s), gaps) == s
  {
    var n := WordLength(s);
    assert Fields(s) == [s[..n]] + Fields(s[n..]);
    GapsOfWord(s[..n], rest, Fields(s[n..]));
    assert s[..n] + s[n..] == s;
  }

  /** Each string of `ws` followed by a newline: how pgrep prints PIDs, and the bytes
      a sequence of membership writes sends to a cgroup's process file. */
  function Lines(ws: seq<string>): string {
    if |ws| == 0 then [] else ws[0] + "\n" + Lines(ws[1..])
  }

  /** Newline-terminated words are read back as exactly those words. */
  lemma {:induction false} FieldsOfLines(ws: seq<string>)
    requires forall i :: 0 <= i < |ws| ==> IsWord(ws[i])
    ensures Fields(Lines(ws)) == ws
  {
    if |ws| > 0 {
      FieldsOfLines(ws[1..]);
      FieldsCons(ws[0], '\n', Lines(ws[1..]));
    }
  }

  /** The parts of `ps` with the separator `c` between each pair (Go's `strings.Join`). */
  function Join(ps: seq<string>, c: char): string
    requires |ps| > 0
  {
    if |ps| == 1 then ps[0] else ps[0] + [c] + Join(ps[1..], c)
  }

  /** Words joined by white space are split back into the same words. */
  lemma {:induction false} FieldsOfJoin(ws: seq<string>, c: char)
    requires |ws| > 0 && IsSpace(c)
    requires forall i :: 0 <= i < |ws| ==> IsWord(ws[i])
    ensures Fields(Join(ws, c)) == ws
  {
    if |ws| == 1 {
      FieldsOfWord(ws[0]);
    } else {
      FieldsOfJoin(ws[1..], c);
      FieldsCons(ws[0], c, Join(ws[1..], c));
    }
  }

  /** Go's `strings.Split(s, sep)` for a one-character separator: the pieces of `s`
      between occurrences of `c`, empty pieces included. */
  function Split(s: string, c: char): (ps: seq<string>)
    ensures |ps| > 0
    ensures forall i :: 0 <= i < |ps| ==> c !in ps[i]
  {
    if |s| == 0 then [""]
    else
      var rest := Split(s[1..], c);
      if s[0] == c then [""] + rest
      else [[s[0]] + rest[0]] + rest[1..]
  }

  lemma {:induction false} SplitPiece(p: string, c: char, t: string)
    requires c !in p
    ensures Split(p + [c] + t, c) == [p] + Split(t, c)
  {
    if |p| == 0 {
      assert p + [c] + t == [c] + t;
      assert ([c] + t)[1..] == t;
    } else {
      assert (p + [c] + t)[1..] == p[1..] + [c] + t;
      SplitPiece(p[1..], c, t);
      assert [p[0]] + p[1..] == p;
    }
  }

  lemma {:induction false} SplitLast(p: string, c: char)
    requires c !in p
    ensures Split(p, c) == [p]
  {
    if |p| > 0 {
      SplitLast(p[1..], c);
      assert [p[0]] + p[1..] == p;
    }
  }

  /** Splitting undoes joining when no part contains the separator. */
  lemma {:induction false} SplitOfJoin(ps: seq<string>, c: char)
    requires |ps| > 0
    requires forall i :: 0 <= i < |ps| ==> c !in ps[i]
    ensures Split(Join(ps, c), c) == ps
  {
    if |ps| == 1 {
      SplitLast(ps[0], c);
    } else {
      SplitOfJoin(ps[1..], c);
      SplitPiece(ps[0], c, Join(ps[1..], c));
    }
  }

  /** Joining undoes splitting, for every string. */
  lemma {:induction false} JoinOfSplit(s: string, c: char)
    ensures Join(Split(s, c), c) == s
  {
    if |s| > 0 {
      JoinOfSplit(s[1..], c);
      var rest := Split(s[1..], c);
      if s[0] == c {
        assert Split(s, c) == [""] + rest;
        assert ([""] + rest)[1..] == rest;
      } else {
        var ps := Split(s, c);
        assert ps == [[s[0]] + rest[0]] + rest[1..];
        if |rest| == 1 {
          assert ps == [[s[0]] + rest[0]];
        } else {
          assert ps[1..] == rest[1..];
          assert Join(rest, c) == rest[0] + [c] + Join(rest[1..], c);
        }
      }
    }
  }

  predicate IsDigit(ch: char) {
    '0' <= ch <= '9'
  }

  function DigitChar(d: nat): (ch: char)
    requires d < 10
    ensures IsDigit(ch)
  {
    ['0', '1', '2', '3', '4', '5', '6', '7', '8', '9'][d]
  }

  function DigitValue(ch: char): (d: nat)
    requires IsDigit(ch)
    ensures d < 10
  {
    (ch as int) - ('0' as int)
  }

  /** Decimal rendering of a natural number without leading zeros, as `fmt` prints it. */
  function Decimal(n: nat): (s: string)
    ensures |s| > 0
    ensures forall i :: 0 <= i < |s| ==> IsDigit(s[i])
    ensures |s| > 1 ==> s[0] != '0'
  {
    if n < 10 then [DigitChar(n)] else Decimal(n / 10) + [DigitChar(n % 10)]
  }

  /** The value of a non-empty string of digits. */
  function DigitsValue(s: string): nat
    requires forall i :: 0 <= i < |s| ==> IsDigit(s[i])
  {
    if |s| == 0 then 0 else DigitsValue(s[..|s| - 1]) * 10 + DigitValue(s[|s| - 1])
  }

  /** Reads a decimal number; `None` for an empty string or one with a non-digit. */
  function ParseDecimal(s: string): (r: Option<nat>)
    ensures r.Some? <==> |s| > 0 && forall i :: 0 <= i < |s| ==> IsDigit(s[i])
  {
    if |s| > 0 && forall i :: 0 <= i < |s| ==> IsDigit(s[i]) then Some(DigitsValue(s)) else None
  }

  lemma DigitRoundTrip(d: nat)
    requires d < 10
    ensures DigitValue(DigitChar(d)) == d
  {
  }

  /** Reading back a rendered number gives the number. */
  lemma {:induction false} DecimalRoundTrip(n: nat)
    ensures ParseDecimal(Decimal(n)) == Some(n)
  {
    var s := Decimal(n);
    if n < 10 {
      DigitRoundTrip(n);
      assert s[..|s| - 1] == [];
      assert DigitsValue(s) == DigitsValue([]) * 10 + DigitValue(s[0]);
    } else {
      DecimalRoundTrip(n / 10);
      DigitRoundTrip(n % 10);
      assert s[..|s| - 1] == Decimal(n / 10);
      assert DigitsValue(s) == DigitsValue(Decimal(n / 10)) * 10 + n % 10;
    }
  }
}
